=== FILE: README.md ===
# AI-Music video generator — a Dafny model

This project models the part of the AI-Music service that turns a music
payload into a video: `scripts/video_generator.py`. It covers two functions.

- `clean_ai_shader` sanitises the GLSL fragment shader that a language model
  returns. It removes Markdown fences, rewrites `fragCoord` and
  `gl_FragColor`, drops blank lines and `//` comment lines, and adds a
  `#version` pragma and an `out vec4 fragColor;` declaration when they are
  missing.
- `generate_video` runs the whole pipeline:
  1. It downloads and inspects the soundtrack, which decides the length.
  2. It asks for shaders until one compiles, giving up after `max_retries`
     attempts.
  3. It stages the accepted shader in the shader file and reads it back.
  4. It binds `iResolution`, `iTime` and `u_audioIntensity`.
  5. It renders `duration * FPS` frames named `frame_NNNN.png` and encodes
     them with the soundtrack.

The modules follow that structure:

| module | file | what it holds |
|---|---|---|
| `Results` | `results.dfy` | `Option` |
| `Strings` | `strings.dfy` | `str.strip`, `str.replace`, `str.splitlines`, `"\n".join` and their laws |
| `Sanitizer` | `sanitizer.dfy` | `clean_ai_shader`, step by step |
| `SanitizerProperties` | `sanitizer_properties.dfy` | what the sanitiser guarantees, and the input on which it is not idempotent |
| `ShaderRetry` | `shader_retry.dfy` | the generate-and-compile loop, as a recursive function and as the loop itself |
| `FrameNaming` | `frame_naming.dfy` | `f"frame_{i:04d}.png"`, the number it encodes and the order of names |
| `Listing` | `listing.dfy` | the frame directory as the encoder reads it: the names sorted in string order |
| `VideoPipeline` | `video_pipeline.dfy` | the soundtrack step, uniform bindings, the frame plan, muxing, and `generate_video` |
| `PipelineProperties` | `pipeline_properties.dfy` | end-to-end properties of a run |

The model treats the outside world as parameters:
- The language model's reply on attempt `k` is `candidate(k)`.
- The GLSL compiler's verdict is `compiles(s)`.
- The program's active uniforms are `uniforms(s)`.
- The sine used for the audio intensity is `sin`.
- The result of the download and the audio decoder is a `Fetch` value.

Exceptions are modelled as results:
- `IndexError`: when no shader line survives the filter, `lines[0]` raises.
  This is `None` from `CleanShader` and `NoShaderLines` from `GenerateVideo`.
- `RuntimeError`: the loop's `else` branch. This is `ShaderAttemptsExhausted`.
- The soundtrack step's `except`: this is the `AudioPlan` that has no path.

### Where the intended behaviour and the code differ

The model follows the code in each of these cases.

- **The sanitiser can return nothing.** It is meant never to return empty
  text for non-empty input. When every line is blank or a `//` comment,
  however, the code indexes an empty list and raises. `Sanitizer.KeepNone`
  and `Sanitizer.CleanLines` state exactly when this happens.
- **The sanitiser is not idempotent.** Idempotence holds only when no output
  line starts with `//` (`SanitizerProperties.Idempotent`). The filter tests
  for `//` before stripping. An indented comment is therefore kept and
  stripped on the first pass, then dropped on the second.
  `SanitizerProperties.IndentedCommentNotIdempotent` shows this on the input
  `"a\n //"`.
- **A run can be shorter than one second.** The intended behaviour is a
  video of at least one second. A track shorter than one second truncates
  to zero seconds, so the frame loop renders nothing and writes no frame
  file. The encoder is then handed a frame directory this run wrote
  nothing to; what it does with it is not modelled. The soundtrack is
  attached only if encoding gets that far. In the model the run is
  produced with no frames and a zero-second soundtrack
  (`PipelineProperties.SubSecondTrackHasNoFrames`).
- **Frame names sort correctly only up to 10000 frames.** The intended
  behaviour is that the encoder, which is handed the frame directory and
  reads it in string order, sees the frames in index order. That holds up
  to 10000 frames. From index 10000 the name has five digits, and
  `frame_10000.png` sorts before `frame_1001.png`
  (`FrameNaming.OrderBreaksAtTenThousand`). In the model the video lists
  its frame files in string order (`VideoPipeline.Mux`), and that list is
  the frame order exactly when the run has at most 10000 frames
  (`Listing.ListingKeepsFrameOrder`).

The lemmas `PipelineProperties.SilentDefaultRun` and
`PipelineProperties.SevenSecondTrack` cover two example runs:
- a silent default run: 150 frames, one request, no soundtrack;
- a seven-second track at 24 fps: 168 frames.

## Model

| member | source | states |
|---|---|---|
| Strings.Strip | scripts/video_generator.py:29-30 | `strip()` leaves no whitespace at either end, never lengthens the text, and gives the empty text exactly when the text is blank |
| Strings.StripWindow | scripts/video_generator.py:29 | stripping only removes whitespace at the two ends: the result sits in the original right after its leading whitespace, and everything before and after it is whitespace |
| Strings.Replace | scripts/video_generator.py:25-27 | replacing a pattern by itself changes nothing, and replacing it by something no longer never lengthens the text |
| Strings.ReplaceAt | scripts/video_generator.py:25-27 | the leftmost occurrence of the pattern becomes the replacement: the text before it is copied unchanged and the scan resumes right after it, so occurrences never overlap |
| Strings.ReplaceAbsent | scripts/video_generator.py:25-27 | a text without the pattern comes back unchanged |
| Strings.SplitLines | scripts/video_generator.py:29 | no line holds a line feed, and only the empty text has no lines |
| Strings.Join | scripts/video_generator.py:36 | the joined text starts with the first line |
| Strings.JoinSplit | scripts/video_generator.py:29-36 | joining the lines of a text that does not end with a line feed gives the text back |
| Strings.SplitJoin | scripts/video_generator.py:29-36 | `splitlines()` undoes `"\n".join` on lines that are non-empty and free of line feeds |
| Strings.ReplaceCreatesNone | scripts/video_generator.py:25-27 | when the replacement cannot overlap a text `q`, every `q` in the result was already in the input, and `q` is not the replaced pattern itself |
| Sanitizer.KeepLines | scripts/video_generator.py:30 | the comprehension keeps at most as many lines as it is given, and every kept line is non-empty and stripped |
| Sanitizer.KeepCount | scripts/video_generator.py:30 | the comprehension keeps one line for each line that is non-blank and does not start with `//` |
| Sanitizer.KeepMembers | scripts/video_generator.py:30 | the stripped form of every non-blank line that does not start with `//` is kept, and every kept line is the stripped form of such a line |
| Sanitizer.KeepAppend | scripts/video_generator.py:30 | the comprehension keeps order and multiplicity: filtering two blocks of lines gives the kept lines of the first block followed by those of the second |
| Sanitizer.KeepFirst | scripts/video_generator.py:30 | the first kept line is the stripped form of the first line that is non-blank and does not start with `//` |
| Sanitizer.KeepNone | scripts/video_generator.py:30-32 | the comprehension keeps nothing exactly when every line is blank or starts with `//`, which is when `lines[0]` raises |
| Sanitizer.WithPragma | scripts/video_generator.py:32-33 | afterwards the first line starts with `#version`; a line is added exactly when the first line did not start with it; the original lines follow unchanged |
| Sanitizer.WithDeclaration | scripts/video_generator.py:34-35 | the declaration is inserted at index 1 exactly when some line uses `fragColor` and none declares it; otherwise the lines are unchanged; afterwards every use of `fragColor` comes with a declaration |
| Sanitizer.StripFenceTags | scripts/video_generator.py:24 | removing fences and tags never lengthens the text |
| Sanitizer.CleanLines | scripts/video_generator.py:29-35 | the sanitiser fails exactly when no line of the rewritten, stripped text survives the filter; otherwise it gives a non-empty line list whose first line is a version pragma |
| Sanitizer.CleanShader | scripts/video_generator.py:23-36 | the sanitiser fails exactly when the line list does, and otherwise returns a text that starts with `#version` |
| SanitizerProperties.FenceFree | scripts/video_generator.py:25 | after `replace("```", "")` no fence is left anywhere, because removal cannot join backquotes into a new fence |
| SanitizerProperties.FenceTagsUntouched | scripts/video_generator.py:24 | text without a fence passes the line-start fence regex unchanged |
| SanitizerProperties.FenceTagsSplit | scripts/video_generator.py:24 | no fence or tag is removed across a line feed, and the text after a line feed is treated as a line start |
| SanitizerProperties.FenceDroppedAtLineStart | scripts/video_generator.py:24 | a fence that opens a line with no `glsl` tag after it, such as the closing fence, is removed on its own and everything after it stays |
| SanitizerProperties.TagDroppedAtLineStart | scripts/video_generator.py:24 | a fence that opens a line is removed together with a following `glsl` tag in any letter case |
| SanitizerProperties.TagKeptMidLine | scripts/video_generator.py:24 | a fence after other text on its line is kept, with the `glsl` after it, by the line-start regex |
| SanitizerProperties.RewriteAvoids | scripts/video_generator.py:24-27 | after the four rewriting steps the text contains no fence, no `fragCoord` and no `gl_FragColor` |
| SanitizerProperties.KeepAll | scripts/video_generator.py:30 | lines that are all stripped and all pass the filter come through it unchanged |
| SanitizerProperties.LinesWellFormed | scripts/video_generator.py:29-35 | every output line is non-empty, stripped and free of line feeds |
| SanitizerProperties.LineCount | scripts/video_generator.py:29-35 | the output has one line per line that passes the filter, one more when the first kept line is no version pragma, and one more when `fragColor` is used but not declared |
| SanitizerProperties.FirstLineDecidesPragma | scripts/video_generator.py:30-33 | the output starts with the first line that passes the filter, stripped, when it is a `#version` pragma, and with `#version 330 core` otherwise |
| SanitizerProperties.OutputDeclaresColor | scripts/video_generator.py:34-35 | whenever a returned line uses `fragColor`, some returned line declares `out vec4 fragColor;` |
| SanitizerProperties.NoFenceInOutput | scripts/video_generator.py:23-36 | the returned shader contains no Markdown fence |
| SanitizerProperties.NoFragCoordInOutput | scripts/video_generator.py:26 | the returned shader never uses the undeclared `fragCoord` |
| SanitizerProperties.NoLegacyColorInOutput | scripts/video_generator.py:27 | the returned shader never uses the removed `gl_FragColor` |
| SanitizerProperties.OutputShape | scripts/video_generator.py:32-36 | the returned text starts with `#version`; `strip()` leaves it unchanged, so the shader file holds exactly it; splitting it gives back the assembled line list |
| SanitizerProperties.Idempotent | scripts/video_generator.py:23-36 | sanitising the output again gives the same output, provided no output line starts with `//` |
| SanitizerProperties.IndentedCommentNotIdempotent | scripts/video_generator.py:30 | on `"a\n //"` a second pass gives a different text from the first |
| ShaderRetry.Retry | scripts/video_generator.py:68-115 | the loop asks for at most `max_retries` replies, and every attempt before the last one sanitised to a shader that failed to compile. It ends exhausted exactly when all `max_retries` attempts failed. A compiled ending carries the last reply's sanitised shader, which compiles and is the one staged. A crashed ending means the last reply sanitised to nothing |
| ShaderRetry.GenerateShader | scripts/video_generator.py:68-115 | the counted loop with `break` and `for … else` ends exactly as the recursive description does, with the same outcome, number of requests and staged shader |
| ShaderRetry.StopsAtFirstNonFailure | scripts/video_generator.py:68-111 | when attempts before `k` fail and attempt `k` does not, the loop makes exactly `k + 1` requests. It ends compiled with attempt `k`'s shader, or crashed when that reply sanitised to nothing |
| ShaderRetry.NoAttempts | scripts/video_generator.py:68-115 | with `max_retries = 0` the loop body never runs: no request is made, and the `else` branch raises as exhausted |
| FrameNaming.Padded | scripts/video_generator.py:158 | the `04d` spelling is the decimal spelling with zeros in front, four characters long unless the number needs more |
| FrameNaming.FrameName | scripts/video_generator.py:158 | the name is `frame_`, then the padded index, then `.png` |
| FrameNaming.DecimalValue | scripts/video_generator.py:158 | reading the decimal spelling of a number back as digits gives that number |
| FrameNaming.PaddedValue | scripts/video_generator.py:158 | the `04d` spelling is all digits and reads back as the frame index |
| FrameNaming.PaddedLength | scripts/video_generator.py:158 | the index takes exactly four digits when it is below 10000; from 10000 it is the plain, longer spelling |
| FrameNaming.NamesDistinct | scripts/video_generator.py:158 | two frames share a file name only if they have the same index |
| FrameNaming.LexDigits | scripts/video_generator.py:158 | on digit strings of equal length, string order is numeric order |
| FrameNaming.NamesInFrameOrder | scripts/video_generator.py:158 | below 10000, one frame name sorts before another exactly when its index is smaller |
| FrameNaming.OrderBreaksAtTenThousand | scripts/video_generator.py:158 | `frame_10000.png` sorts before `frame_1001.png` |
| Listing.SortNames | scripts/video_generator.py:165 | the encoder reads every frame file of the directory once, and no file comes after one whose name is smaller |
| Listing.SortOrdered | scripts/video_generator.py:165 | names that are already in string order are read in that order |
| Listing.ListingKeepsFrameOrder | scripts/video_generator.py:158-165 | the encoder reads the frames of a run in frame order exactly when the run has at most 10000 frames |
| VideoPipeline.TruncateToInt | scripts/video_generator.py:59 | `int()` on a duration rounds toward zero: it is below the value by less than one for non-negative values, and above it by less than one for negative ones |
| VideoPipeline.FrameCount | scripts/video_generator.py:147 | `range(duration * FPS)` has the product's length when it is positive and no element otherwise |
| VideoPipeline.InspectAudio | scripts/video_generator.py:42-63 | a soundtrack is kept exactly when the URL is truthy and both download and decoding succeed, and the length is then its whole seconds; otherwise the length is five seconds and there is no soundtrack |
| VideoPipeline.ResolutionValue | scripts/video_generator.py:137-140 | `iResolution` gets width and height, as a pair exactly when its dimension is 2 and otherwise with a zero third component |
| VideoPipeline.ResolutionBinding | scripts/video_generator.py:136-140 | the resolution is bound exactly when the program has `iResolution` |
| VideoPipeline.FrameBindings | scripts/video_generator.py:149-152 | `iTime` is bound to the frame time exactly when the program has it, and `u_audioIntensity` to the intensity exactly when the program has it; each is set at most once, and no other uniform or value is set per frame |
| VideoPipeline.FrameTime | scripts/video_generator.py:148 | `t = i / FPS`: the time multiplied by the frame rate gives back the frame index |
| VideoPipeline.MakeFrame | scripts/video_generator.py:147-148 | a frame's time multiplied by the frame rate gives back its index |
| VideoPipeline.FramePlan | scripts/video_generator.py:147-160 | there is exactly one frame for every index below the frame count, in index order |
| VideoPipeline.PlanNames | scripts/video_generator.py:147-158 | a run of `n` frames writes exactly the files `frame_{i:04d}.png` for `i` below `n`, in frame order |
| VideoPipeline.PlannedFrame | scripts/video_generator.py:147-158 | frame `i` of the plan has index `i`, is saved as `frame_{i:04d}.png` and sets exactly the per-frame uniforms the program has at its own time |
| VideoPipeline.Mux | scripts/video_generator.py:165-168 | the soundtrack is attached exactly when its path survived the soundtrack step, and is cut to the run's length; the encoder reads every frame file once, in string order of the names, which is frame order whenever the names are already in string order; the rate and output path come from the configuration |
| VideoPipeline.GenerateVideo | scripts/video_generator.py:39-172 | a run fails exactly when the shader loop did not end with a compiled shader; a produced run renders `duration * FPS` frames, where `duration` is the length the soundtrack step chose |
| PipelineProperties.RenderedShaderCompiled | scripts/video_generator.py:94-133 | the shader read back and rendered is the sanitised reply of the last attempt, made within `max_retries` attempts; it compiled, starts with `#version` and contains no fence |
| PipelineProperties.AllAttemptsFailed | scripts/video_generator.py:68-115 | the run raises the runtime error exactly when every one of the `max_retries` attempts sanitised to a shader that failed to compile |
| PipelineProperties.SanitizerFailure | scripts/video_generator.py:94 | a run that fails in the sanitiser made at most `max_retries` requests, and its last reply sanitised to nothing |
| PipelineProperties.SoundtrackDecidesLength | scripts/video_generator.py:42-65 | a produced video carries a soundtrack exactly when the URL was truthy and download and decoding succeeded. Its frame count is then `FPS` times the track's whole seconds, and otherwise `FPS` times five |
| PipelineProperties.VideoAsLongAsSoundtrack | scripts/video_generator.py:59-65 | with a soundtrack of at least one whole second, the frame count is exactly the soundtrack's seconds times the frame rate |
| PipelineProperties.SubSecondTrackHasNoFrames | scripts/video_generator.py:59-65 | a track shorter than one second gives a run without frames; in the model, which does not look at what the encoder does with an empty frame directory, the zero-second soundtrack is attached |
| PipelineProperties.FrameNamesInOrder | scripts/video_generator.py:147-165 | no two frames of a run share a file; the video holds every frame file once, and lists them in frame order exactly when the run has at most 10000 frames |
| PipelineProperties.SilentDefaultRun | scripts/video_generator.py:42-65 | with the default configuration, no music URL and a first reply that sanitises to a compiling shader, the run makes one request and produces 150 frames, no soundtrack and `temp/generated_video.mp4` |
| PipelineProperties.SevenSecondTrack | scripts/video_generator.py:42-65 | a seven-second track at 24 frames per second gives 168 frames and a seven-second soundtrack |

## Left out

- The OpenAI client, the prompt and the chat request are not modelled. The replies are the `candidate` parameter, and the prompt's payload fields (`moods`, `genres`, `themes`) have no effect on the model.
- The moderngl test compile is the `compiles` parameter. Only `moderngl.Error` is assumed to be caught; other exceptions from the compiler are not modelled.
- Building the render program is not modelled. Its active uniforms and their dimensions are the `uniforms` parameter, and the model assumes the staged shader builds, since its sanitised form compiled.
- Drawing, pixel readback, the row flip, pygame and PNG writing are device I/O. A frame is modelled by its index, time, file name and uniform bindings.
- `np.sin` and float arithmetic are not modelled exactly. The sine is the `sin` parameter, and times are exact reals, so `t = i / FPS` carries no rounding.
- The HTTP request, its status check, the file write and moviepy's decoding are summarised as the `Fetch` and `Probe` values.
- `os.makedirs`, the file system and `print` calls are not modelled. Writing and reading back the shader file is modelled as storing the stripped text.
- Frame files left over in `OUTPUT_DIR` from an earlier, longer run are not modelled. The encoder would pick them up along with the new ones.
- The encoder library's own listing of the frame directory is taken to be Python's `sorted()` on the file names, that is string order by character code (`Listing.SortNames`).
- Encoding failures, codec choices, and what the encoder does with a zero or negative frame rate or with a frame directory that holds no frame are not modelled.
- `config.py` is represented only by the default settings (`VideoPipeline.Defaults`). Reading environment variables is not modelled, and `app.py` and `scripts/drive_uploader.py` are not part of this model.
- Text is modelled as sequences of characters, with these differences from Python:
  - `strip()` removes the ASCII whitespace `isspace()` accepts: space, `\t`, `\n`, `\v`, `\f`, `\r` and `\x1c` to `\x1f`. Non-ASCII whitespace such as `\x85`, `\xa0` and `\u2028` is left out;
  - `splitlines()` splits on `\n` only. It also splits on `\r`, `\r\n`, `\v`, `\f` and `\x1c` to `\x1e`, and on `\x85`, `\u2028` and `\u2029`, and these are left out;
  - the case-insensitive `glsl` tag is matched by ASCII case folding only.
- The sanitiser is a parameter of `ShaderRetry`, so the loop's properties hold for any sanitiser. `VideoPipeline.GenerateVideo` plugs in `Sanitizer.CleanShader`.
- SanitizerFailure: states only how the failing request ended. That the earlier requests failed to compile follows from `ShaderRetry.Retry`'s contract and is not repeated here.
- PlannedFrame: the frame's time is stated by `VideoPipeline.MakeFrame`, which every planned frame is, and is not repeated.

=== FILE: frame_naming.dfy ===
/**
 * Frame file names, `f"frame_{i:04d}.png"`: the frame index in decimal,
 * padded on the left with zeros to four digits. The video encoder lists
 * the frame directory in string order, so what matters is that distinct
 * frames get distinct names and that string order agrees with frame order;
 * it does below 10000 frames and not from there on.
 */
module FrameNaming {

  import opened Strings

  const FramePrefix := "frame_"
  const FrameSuffix := ".png"
  const PadWidth := 4

  predicate IsDigit(c: char) {
    '0' <= c <= '9'
  }

  predicate AllDigits(s: string) {
    forall i :: 0 <= i < |s| ==> IsDigit(s[i])
  }

  function DigitValue(c: char): nat
    requires IsDigit(c)
  {
    c as int - '0' as int
  }

  function DigitChar(d: nat): (c: char)
    requires d < 10
    ensures IsDigit(c) && DigitValue(c) == d
  {
    ('0' as int + d) as char
  }

  function Pow10(k: nat): (p: nat)
    ensures p >= 1
  {
    if k == 0 then 1 else 10 * Pow10(k - 1)
  }

  /** The number a digit string spells, most significant digit first. */
  function Value(s: string): (v: nat)
    requires AllDigits(s)
    ensures v < Pow10(|s|)
    ensures |s| > 0 ==> v >= DigitValue(s[0]) * Pow10(|s| - 1)
  {
    if |s| == 0 then 0
    else
      var rest := Value(s[1..]);
      ValueBound(DigitValue(s[0]), rest, |s|);
      DigitValue(s[0]) * Pow10(|s| - 1) + rest
  }

  /** A leading digit followed by a smaller number stays below the next power of ten. */
  lemma ValueBound(d: nat, rest: nat, n: nat)
    requires n >= 1 && d < 10 && rest < Pow10(n - 1)
    ensures d * Pow10(n - 1) + rest < Pow10(n)
  {
    var p := Pow10(n - 1);
    ScaleMonotone(d, 9, p);
    assert Pow10(n) == 10 * p;
  }

  /** `str(n)`: the shortest decimal spelling of `n`. */
  function Decimal(n: nat): (s: string)
    ensures |s| >= 1 && AllDigits(s)
    ensures s[0] == '0' ==> n == 0
    decreases n
  {
    if n < 10 then [DigitChar(n)] else Decimal(n / 10) + [DigitChar(n % 10)]
  }

  /** `format(n, "04d")`: zeros on the left up to four characters, never truncated. */
  function Padded(n: nat): (s: string)
    ensures AllDigits(s)
    ensures |s| == PadWidth || s == Decimal(n)
    ensures |s| >= |Decimal(n)| && s[|s| - |Decimal(n)|..] == Decimal(n)
    ensures forall k :: 0 <= k < |s| - |Decimal(n)| ==> s[k] == '0'
  {
    var digits := Decimal(n);
    if |digits| >= PadWidth then digits else Zeros(PadWidth - |digits|) + digits
  }

  function Zeros(k: nat): (z: string)
    ensures |z| == k && forall i :: 0 <= i < k ==> z[i] == '0'
  {
    if k == 0 then "" else "0" + Zeros(k - 1)
  }

  /** The name frame `i` is saved under: the padded index between a fixed prefix and suffix. */
  function FrameName(i: nat): (name: string)
    ensures |name| >= |FramePrefix| + PadWidth + |FrameSuffix|
    ensures name[..|FramePrefix|] == FramePrefix
    ensures name[|name| - |FrameSuffix|..] == FrameSuffix
    ensures name[|FramePrefix|..|name| - |FrameSuffix|] == Padded(i)
  {
    var digits := Padded(i);
    ThreeParts(FramePrefix, digits, FrameSuffix);
    FramePrefix + digits + FrameSuffix
  }

  /** The names of frames `0` to `count - 1`, in frame order. */
  function IndexNames(count: nat): (names: seq<string>)
    ensures |names| == count && forall i :: 0 <= i < count ==> names[i] == FrameName(i)
  {
    seq(count, i requires 0 <= i < count => FrameName(i))
  }

  /** Python's `a < b` on strings: the first differing character decides, and a proper prefix is smaller. */
  predicate LexLess(a: string, b: string)
    decreases |a|
  {
    if |a| == 0 then |b| > 0
    else if |b| == 0 then false
    else if a[0] == b[0] then LexLess(a[1..], b[1..])
    else a[0] < b[0]
  }

  // ---------------------------------------------------------------------
  // Decimal spelling round trip and length

  /** Multiplying by a natural number keeps order. */
  lemma ScaleMonotone(a: nat, b: nat, p: nat)
    requires a <= b
    ensures a * p <= b * p
  {
  }

  /** One more digit on the right shifts every earlier digit up one place. */
  lemma ShiftPlace(d: nat, p: nat, rest: nat, c: nat)
    ensures d * (10 * p) + (10 * rest + c) == 10 * (d * p + rest) + c
  {
  }

  lemma {:induction false} ValueAppend(s: string, c: char)
    requires AllDigits(s) && IsDigit(c)
    ensures AllDigits(s + [c])
    ensures Value(s + [c]) == 10 * Value(s) + DigitValue(c)
    decreases |s|
  {
    var t := s + [c];
    assert AllDigits(t);
    if |s| > 0 {
      assert t[0] == s[0];
      assert t[1..] == s[1..] + [c];
      ValueAppend(s[1..], c);
      var d := DigitValue(s[0]);
      var p := Pow10(|s| - 1);
      assert Pow10(|s|) == 10 * p;
      assert Value(t) == d * (10 * p) + (10 * Value(s[1..]) + DigitValue(c));
      assert Value(s) == d * p + Value(s[1..]);
      ShiftPlace(d, p, Value(s[1..]), DigitValue(c));
    }
  }

  /** Reading back the decimal spelling gives the number. */
  lemma {:induction false} DecimalValue(n: nat)
    ensures Value(Decimal(n)) == n
    decreases n
  {
    if n >= 10 {
      DecimalValue(n / 10);
      ValueAppend(Decimal(n / 10), DigitChar(n % 10));
    }
  }

  lemma {:induction false} ZerosValue(k: nat, s: string)
    requires AllDigits(s)
    ensures AllDigits(Zeros(k) + s) && Value(Zeros(k) + s) == Value(s)
  {
    var t := Zeros(k) + s;
    assert AllDigits(t);
    if k > 0 {
      var u := Zeros(k - 1) + s;
      assert t == "0" + u;
      assert t[0] == '0' && t[1..] == u;
      ZerosValue(k - 1, s);
      assert Value(t) == 0 * Pow10(|u|) + Value(u);
    } else {
      assert t == s;
    }
  }

  /** Reading back the padded spelling gives the number. */
  lemma PaddedValue(n: nat)
    ensures Value(Padded(n)) == n
  {
    DecimalValue(n);
    var digits := Decimal(n);
    if |digits| < PadWidth {
      ZerosValue(PadWidth - |digits|, digits);
    }
  }

  /** A number below `10^k` (k at least 1) needs at most `k` digits. */
  lemma {:induction false} ShortDecimal(n: nat, k: nat)
    requires k >= 1 && n < Pow10(k)
    ensures |Decimal(n)| <= k
    decreases n
  {
    if n >= 10 {
      assert Pow10(1) == 10;
      assert k >= 2;
      ShortDecimal(n / 10, k - 1);
    }
  }

  /** A number of at least `10^k` needs more than `k` digits. */
  lemma {:induction false} LongDecimal(n: nat, k: nat)
    requires n >= Pow10(k)
    ensures |Decimal(n)| > k
    decreases n
  {
    if k > 0 {
      LongDecimal(n / 10, k - 1);
    }
  }

  /**
   * The padded spelling has exactly four digits below 10000, and from
   * there on it is the plain spelling, which is longer.
   */
  lemma PaddedLength(n: nat)
    ensures n < 10000 <==> |Padded(n)| == PadWidth
    ensures n >= 10000 ==> Padded(n) == Decimal(n) && |Padded(n)| > PadWidth
  {
    assert Pow10(4) == 10000;
    if n < 10000 {
      ShortDecimal(n, 4);
    } else {
      LongDecimal(n, 4);
    }
  }

  // ---------------------------------------------------------------------
  // Distinct frames, distinct names

  /** No two frames share a file name, whatever their number. */
  lemma NamesDistinct(i: nat, j: nat)
    ensures FrameName(i) == FrameName(j) ==> i == j
  {
    PaddedValue(i);
    PaddedValue(j);
  }

  // ---------------------------------------------------------------------
  // String order against frame order

  lemma {:induction false} LexIrreflexive(a: string)
    ensures !LexLess(a, a)
    decreases |a|
  {
    if |a| > 0 {
      LexIrreflexive(a[1..]);
    }
  }

  /** A shared prefix does not decide the comparison. */
  lemma {:induction false} LexCommonPrefix(p: string, x: string, y: string)
    ensures LexLess(p + x, p + y) == LexLess(x, y)
    decreases |p|
  {
    if |p| > 0 {
      assert (p + x)[0] == p[0] == (p + y)[0];
      assert (p + x)[1..] == p[1..] + x;
      assert (p + y)[1..] == p[1..] + y;
      LexCommonPrefix(p[1..], x, y);
    } else {
      assert p + x == x && p + y == y;
    }
  }

  /** Between different strings of one length, whatever follows does not matter. */
  lemma {:induction false} LexSameLength(a: string, b: string, q: string, r: string)
    requires |a| == |b| && a != b
    ensures LexLess(a + q, b + r) == LexLess(a, b)
    decreases |a|
  {
    if a[0] == b[0] {
      assert a[1..] != b[1..] by {
        assert a == [a[0]] + a[1..] && b == [b[0]] + b[1..];
      }
      assert (a + q)[1..] == a[1..] + q;
      assert (b + r)[1..] == b[1..] + r;
      LexSameLength(a[1..], b[1..], q, r);
    }
  }

  lemma ValueFirst(s: string)
    requires AllDigits(s) && |s| > 0
    ensures Value(s) == DigitValue(s[0]) * Pow10(|s| - 1) + Value(s[1..])
    ensures Value(s[1..]) < Pow10(|s| - 1)
  {
  }

  lemma LeadingPlace(d: nat, e: nat, p: nat, ra: nat, rb: nat)
    requires d < e && ra < p
    ensures d * p + ra < e * p + rb
  {
    ScaleMonotone(d + 1, e, p);
    assert (d + 1) * p == d * p + p;
  }

  /** A leading digit that is smaller makes the whole number smaller, at equal length. */
  lemma LeadingDigit(a: string, b: string)
    requires AllDigits(a) && AllDigits(b) && |a| == |b| > 0
    requires DigitValue(a[0]) < DigitValue(b[0])
    ensures Value(a) < Value(b)
  {
    ValueFirst(a);
    ValueFirst(b);
    LeadingPlace(DigitValue(a[0]), DigitValue(b[0]), Pow10(|a| - 1), Value(a[1..]), Value(b[1..]));
  }

  /** On digit strings of one length, string order is numeric order. */
  lemma {:induction false} LexDigits(a: string, b: string)
    requires AllDigits(a) && AllDigits(b) && |a| == |b|
    ensures LexLess(a, b) <==> Value(a) < Value(b)
    decreases |a|
  {
    if |a| > 0 {
      if a[0] == b[0] {
        LexDigits(a[1..], b[1..]);
      } else if a[0] < b[0] {
        LeadingDigit(a, b);
      } else {
        LeadingDigit(b, a);
      }
    }
  }

  /** Below 10000 frames, the name order is the frame order. */
  lemma NamesInFrameOrder(i: nat, j: nat)
    requires i < 10000 && j < 10000
    ensures LexLess(FrameName(i), FrameName(j)) <==> i < j
  {
    PaddedLength(i);
    PaddedLength(j);
    PaddedValue(i);
    PaddedValue(j);
    LexDigits(Padded(i), Padded(j));
    NameOrder(i, j);
    if i == j {
      LexIrreflexive(FrameName(i));
    } else {
      assert Padded(i) != Padded(j);
      LexSameLength(Padded(i), Padded(j), FrameSuffix, FrameSuffix);
    }
  }

  /** The padded spelling of 10000 is five digits long and its first four spell 1000. */
  lemma TenThousandHead()
    ensures |Padded(10000)| == 5
    ensures AllDigits(Padded(10000)[..4]) && Value(Padded(10000)[..4]) == 1000
  {
    PaddedLength(10000);
    var a := Padded(10000);
    assert |a| == 5 by {
      ShortDecimal(10000, 5);
      assert Pow10(5) == 100000;
    }
    assert a[..4] == Decimal(1000) by {
      assert Decimal(10000) == Decimal(1000) + [DigitChar(0)];
    }
    DecimalValue(1000);
  }

  /** From 10000 frames on the order breaks: frame 10000 sorts before frame 1001. */
  lemma OrderBreaksAtTenThousand()
    ensures LexLess(FrameName(10000), FrameName(1001))
  {
    TailsOutOfOrder();
    NameOrder(10000, 1001);
  }

  /** Two frame names compare as their padded indices with the suffix do. */
  lemma NameOrder(i: nat, j: nat)
    ensures LexLess(FrameName(i), FrameName(j)) == LexLess(Padded(i) + FrameSuffix, Padded(j) + FrameSuffix)
  {
    Regroup(FramePrefix, Padded(i), FrameSuffix);
    Regroup(FramePrefix, Padded(j), FrameSuffix);
    LexCommonPrefix(FramePrefix, Padded(i) + FrameSuffix, Padded(j) + FrameSuffix);
  }

  /** The padded spelling of 10000, with the suffix, sorts before that of 1001. */
  lemma TailsOutOfOrder()
    ensures LexLess(Padded(10000) + FrameSuffix, Padded(1001) + FrameSuffix)
  {
    TenThousandHead();
    PaddedLength(1001);
    PaddedValue(1001);
    var a, b := Padded(10000), Padded(1001);
    var head, tail := a[..4], [a[4]] + FrameSuffix;
    LexDigits(head, b);
    assert LexLess(head, b);
    LexSameLength(head, b, tail, FrameSuffix);
    assert a + FrameSuffix == head + tail;
  }

}

=== FILE: listing.dfy ===
/**
 * The frame directory as the video encoder sees it: the file names listed
 * in string order. The order is Python's string order, `FrameNaming.LexLess`;
 * the listing is any arrangement of the names in which no name comes
 * after a smaller one.
 */
module Listing {

  import opened FrameNaming

  /** `a <= b` on strings. */
  predicate LexAtMost(a: string, b: string) {
    !LexLess(b, a)
  }

  /** No name is followed by a smaller one. */
  predicate InOrder(names: seq<string>) {
    forall i, j :: 0 <= i < j < |names| ==> LexAtMost(names[i], names[j])
  }

  // ---------------------------------------------------------------------
  // String order is a total order

  lemma {:induction false} LexAsymmetric(a: string, b: string)
    ensures LexLess(a, b) ==> !LexLess(b, a)
    decreases |a|
  {
    if |a| > 0 && |b| > 0 && a[0] == b[0] {
      LexAsymmetric(a[1..], b[1..]);
    }
  }

  lemma {:induction false} LexTotal(a: string, b: string)
    ensures a == b || LexLess(a, b) || LexLess(b, a)
    decreases |a|
  {
    if |a| > 0 && |b| > 0 && a[0] == b[0] {
      LexTotal(a[1..], b[1..]);
      if a[1..] == b[1..] {
        assert a == [a[0]] + a[1..] && b == [b[0]] + b[1..];
      }
    }
  }

  lemma {:induction false} LexTransitive(a: string, b: string, c: string)
    requires LexLess(a, b) && LexLess(b, c)
    ensures LexLess(a, c)
    decreases |a|
  {
    if |a| > 0 && a[0] == b[0] && b[0] == c[0] {
      LexTransitive(a[1..], b[1..], c[1..]);
    }
  }

  /** `a <= b <= c` gives `a <= c`. */
  lemma AtMostTransitive(a: string, b: string, c: string)
    requires LexAtMost(a, b) && LexAtMost(b, c)
    ensures LexAtMost(a, c)
  {
    if LexLess(c, a) {
      LexTotal(a, b);
      LexTotal(b, c);
      LexIrreflexive(a);
      LexIrreflexive(c);
      if a != b && b != c {
        LexTransitive(a, b, c);
        LexAsymmetric(a, c);
      } else if a != b {
        LexAsymmetric(a, b);
      } else if b != c {
        LexAsymmetric(b, c);
      }
    }
  }

  // ---------------------------------------------------------------------
  // Sorting the listing

  /** Puts `x` into an ordered listing, in front of the first name not smaller than it. */
  function Insert(x: string, names: seq<string>): (r: seq<string>)
    requires InOrder(names)
    ensures multiset(r) == multiset(names) + multiset{x}
    ensures InOrder(r)
    ensures (|names| == 0 || LexAtMost(x, names[0])) ==> r == [x] + names
  {
    if |names| == 0 then [x]
    else if LexAtMost(x, names[0]) then
      InsertFront(x, names);
      [x] + names
    else
      var rest := Insert(x, names[1..]);
      assert names == [names[0]] + names[1..];
      InsertBehind(x, names, rest);
      [names[0]] + rest
  }

  /** A name not above the first of an ordered listing may go in front of it. */
  lemma InsertFront(x: string, names: seq<string>)
    requires InOrder(names) && |names| > 0 && LexAtMost(x, names[0])
    ensures InOrder([x] + names)
  {
    var r := [x] + names;
    forall i, j | 0 <= i < j < |r| ensures LexAtMost(r[i], r[j]) {
      if i == 0 && j > 1 {
        AtMostTransitive(x, names[0], names[j - 1]);
      }
    }
  }

  /** A name above the first one goes behind it. */
  lemma InsertBehind(x: string, names: seq<string>, rest: seq<string>)
    requires InOrder(names) && |names| > 0 && !LexAtMost(x, names[0])
    requires InOrder(rest) && multiset(rest) == multiset(names[1..]) + multiset{x}
    ensures InOrder([names[0]] + rest)
  {
    var r := [names[0]] + rest;
    LexAsymmetric(names[0], x);
    forall j | 0 <= j < |rest| ensures LexAtMost(names[0], rest[j]) {
      assert rest[j] in multiset(rest);
      if rest[j] != x {
        var k :| 0 <= k < |names[1..]| && names[1..][k] == rest[j];
        assert names[k + 1] == rest[j];
      }
    }
    forall i, j | 0 <= i < j < |r| ensures LexAtMost(r[i], r[j]) {
      if i > 0 {
        assert r[i] == rest[i - 1] && r[j] == rest[j - 1];
      } else {
        assert r[j] == rest[j - 1];
      }
    }
  }

  /** The listing: the names in string order. */
  function SortNames(names: seq<string>): (r: seq<string>)
    ensures multiset(r) == multiset(names)
    ensures InOrder(r)
  {
    if |names| == 0 then []
    else
      assert names == [names[0]] + names[1..];
      Insert(names[0], SortNames(names[1..]))
  }

  /** The tail of an ordered listing is ordered. */
  lemma OrderedTail(names: seq<string>)
    requires InOrder(names) && |names| > 0
    ensures InOrder(names[1..])
  {
    var rest := names[1..];
    forall i, j | 0 <= i < j < |rest| ensures LexAtMost(rest[i], rest[j]) {
      assert rest[i] == names[i + 1] && rest[j] == names[j + 1];
    }
  }

  /** Names already in string order are listed as they are. */
  lemma {:induction false} SortOrdered(names: seq<string>)
    requires InOrder(names)
    ensures SortNames(names) == names
  {
    if |names| > 0 {
      var rest := names[1..];
      OrderedTail(names);
      SortOrdered(rest);
      assert |rest| == 0 || LexAtMost(names[0], rest[0]) by {
        if |rest| > 0 {
          assert rest[0] == names[1];
        }
      }
      assert names == [names[0]] + rest;
    }
  }

  /** Names not in string order are listed in another order. */
  lemma SortMoves(names: seq<string>, i: int, j: int)
    requires 0 <= i < j < |names| && LexLess(names[j], names[i])
    ensures SortNames(names) != names
  {
    assert !InOrder(names);
  }

  // ---------------------------------------------------------------------
  // The frame directory

  /**
   * The encoder lists the frames of a run in frame order exactly when the
   * run has at most 10000 frames. From 10001 frames on, `frame_10000.png`
   * comes before `frame_1001.png`.
   */
  lemma ListingKeepsFrameOrder(count: nat)
    ensures SortNames(IndexNames(count)) == IndexNames(count) <==> count <= 10000
  {
    var names := IndexNames(count);
    if count <= 10000 {
      forall i, j | 0 <= i < j < count ensures LexAtMost(names[i], names[j]) {
        NamesInFrameOrder(j, i);
      }
      SortOrdered(names);
    } else {
      OrderBreaksAtTenThousand();
      SortMoves(names, 1001, 10000);
    }
  }

}

=== FILE: pipeline_properties.dfy ===
/**
 * What a whole `generate_video` run guarantees: the shader it renders is
 * the sanitised shader that passed the test compile; it fails exactly when
 * the loop did not end on a compiling shader; the soundtrack is attached
 * exactly when it was downloaded and decoded, and then the video has as
 * many frames as its whole seconds allow; frame names are distinct, and
 * the encoder reads them in frame order exactly up to 10000 frames.
 */
module PipelineProperties {

  import opened Results
  import opened Strings
  import opened Sanitizer
  import opened SanitizerProperties
  import ShaderRetry
  import opened FrameNaming
  import opened VideoPipeline
  import opened Listing

  /** The retry loop as the whole run starts it: the real sanitiser, nothing staged yet. */
  function ShaderLoop(candidate: nat -> string, compiles: string -> bool, maxRetries: nat): ShaderRetry.Run {
    ShaderRetry.Retry(candidate, CleanShader, compiles, maxRetries, 0, None)
  }

  /** A produced run is the loop's compiled shader, read back, rendered over the planned frames and muxed. */
  lemma ProducedRun(
    cfg: Config, musicUrl: Option<string>, fetch: Fetch,
    candidate: nat -> string, compiles: string -> bool, maxRetries: nat,
    uniforms: string -> map<string, nat>, sin: real -> real)
    ensures var r := GenerateVideo(cfg, musicUrl, fetch, candidate, compiles, maxRetries, uniforms, sin);
      var run := ShaderLoop(candidate, compiles, maxRetries);
      var audio := InspectAudio(musicUrl, fetch);
      r.Produced? ==>
        && run.outcome.Compiled?
        && r.render.shader == Strip(run.staged.value)
        && r.render.frames == FramePlan(FrameCount(audio.seconds, cfg.fps), cfg.fps, uniforms(r.render.shader), sin)
        && r.video == Mux(cfg, r.render.frames, audio)
  {
  }

  /** A failed run names the way the loop ended. */
  lemma FailedRun(
    cfg: Config, musicUrl: Option<string>, fetch: Fetch,
    candidate: nat -> string, compiles: string -> bool, maxRetries: nat,
    uniforms: string -> map<string, nat>, sin: real -> real)
    ensures var r := GenerateVideo(cfg, musicUrl, fetch, candidate, compiles, maxRetries, uniforms, sin);
      var run := ShaderLoop(candidate, compiles, maxRetries);
      && (r == Failed(ShaderAttemptsExhausted) <==> run.outcome.Exhausted?)
      && (r == Failed(NoShaderLines) <==> run.outcome.SanitizerCrashed?)
  {
  }

  /**
   * The renderer gets back, from the shader file, exactly the sanitised
   * shader that compiled on the loop's last attempt, and that text is a
   * fence-free GLSL source opening with a version pragma.
   */
  lemma RenderedShaderCompiled(
    cfg: Config, musicUrl: Option<string>, fetch: Fetch,
    candidate: nat -> string, compiles: string -> bool, maxRetries: nat,
    uniforms: string -> map<string, nat>, sin: real -> real)
    ensures GenerateVideo(cfg, musicUrl, fetch, candidate, compiles, maxRetries, uniforms, sin).Produced? ==>
      var shader := GenerateVideo(cfg, musicUrl, fetch, candidate, compiles, maxRetries, uniforms, sin).render.shader;
      var run := ShaderLoop(candidate, compiles, maxRetries);
      && 0 < run.calls <= maxRetries
      && CleanShader(candidate(run.calls - 1)) == Some(shader)
      && compiles(shader)
      && StartsWith(shader, VersionPrefix)
      && !Contains(shader, Fence)
  {
    ProducedRun(cfg, musicUrl, fetch, candidate, compiles, maxRetries, uniforms, sin);
    var run := ShaderLoop(candidate, compiles, maxRetries);
    if run.outcome.Compiled? {
      var code := candidate(run.calls - 1);
      OutputShape(code);
      NoFenceInOutput(code);
    }
  }

  /** A run raises the runtime error exactly when every attempt produced a shader that did not compile. */
  lemma AllAttemptsFailed(
    cfg: Config, musicUrl: Option<string>, fetch: Fetch,
    candidate: nat -> string, compiles: string -> bool, maxRetries: nat,
    uniforms: string -> map<string, nat>, sin: real -> real)
    ensures GenerateVideo(cfg, musicUrl, fetch, candidate, compiles, maxRetries, uniforms, sin) == Failed(ShaderAttemptsExhausted) <==>
      forall k :: 0 <= k < maxRetries ==> ShaderRetry.AttemptFails(candidate, CleanShader, compiles, k)
  {
    FailedRun(cfg, musicUrl, fetch, candidate, compiles, maxRetries, uniforms, sin);
    var run := ShaderLoop(candidate, compiles, maxRetries);
    assert run.outcome.Exhausted? <==>
      run.calls == maxRetries && forall k :: 0 <= k < maxRetries ==> ShaderRetry.AttemptFails(candidate, CleanShader, compiles, k);
    if run.outcome.Compiled? || run.outcome.SanitizerCrashed? {
      assert 0 <= run.calls - 1 < maxRetries && !ShaderRetry.AttemptFails(candidate, CleanShader, compiles, run.calls - 1);
    }
  }

  /**
   * A run raises out of the sanitiser only when the loop reached a reply
   * with no line to keep, every earlier reply having given a shader that did
   * not compile.
   */
  lemma SanitizerFailure(
    cfg: Config, musicUrl: Option<string>, fetch: Fetch,
    candidate: nat -> string, compiles: string -> bool, maxRetries: nat,
    uniforms: string -> map<string, nat>, sin: real -> real)
    ensures GenerateVideo(cfg, musicUrl, fetch, candidate, compiles, maxRetries, uniforms, sin) == Failed(NoShaderLines) ==>
      var run := ShaderLoop(candidate, compiles, maxRetries);
      && 0 < run.calls <= maxRetries
      && CleanShader(candidate(run.calls - 1)).None?
      && run.outcome.SanitizerCrashed?
  {
    FailedRun(cfg, musicUrl, fetch, candidate, compiles, maxRetries, uniforms, sin);
    CrashedLoop(candidate, CleanShader, compiles, maxRetries);
  }

  /** What a loop that ended in the sanitiser has done, for any sanitiser. */
  lemma CrashedLoop(candidate: nat -> string, sanitize: string -> Option<string>, compiles: string -> bool, maxRetries: nat)
    ensures var run := ShaderRetry.Retry(candidate, sanitize, compiles, maxRetries, 0, None);
      run.outcome.SanitizerCrashed? ==>
        && 0 < run.calls <= maxRetries
        && sanitize(candidate(run.calls - 1)).None?
        && forall k :: 0 <= k < run.calls - 1 ==> ShaderRetry.AttemptFails(candidate, sanitize, compiles, k)
  {
  }

  /**
   * The soundtrack is attached exactly when the URL was truthy and the
   * download and decoding succeeded; the video then has `fps` frames per
   * whole second of the track, and otherwise `fps` frames for each of the
   * five default seconds.
   */
  lemma SoundtrackDecidesLength(
    cfg: Config, musicUrl: Option<string>, fetch: Fetch,
    candidate: nat -> string, compiles: string -> bool, maxRetries: nat,
    uniforms: string -> map<string, nat>, sin: real -> real)
    ensures var r := GenerateVideo(cfg, musicUrl, fetch, candidate, compiles, maxRetries, uniforms, sin);
      r.Produced? ==>
        && (r.video.audio.Some? <==> Truthy(musicUrl) && fetch.Fetched? && fetch.probe.Probed?)
        && (r.video.audio.Some? ==>
              && r.video.audio.value == Soundtrack(AudioPath, TruncateToInt(fetch.probe.seconds))
              && |r.video.frameNames| == FrameCount(TruncateToInt(fetch.probe.seconds), cfg.fps))
        && (r.video.audio.None? ==> |r.video.frameNames| == FrameCount(DefaultSeconds, cfg.fps))
  {
    ProducedRun(cfg, musicUrl, fetch, candidate, compiles, maxRetries, uniforms, sin);
  }

  /** With a soundtrack of at least one whole second, the frames cover exactly its whole seconds. */
  lemma VideoAsLongAsSoundtrack(
    cfg: Config, musicUrl: Option<string>, fetch: Fetch,
    candidate: nat -> string, compiles: string -> bool, maxRetries: nat,
    uniforms: string -> map<string, nat>, sin: real -> real)
    requires cfg.fps > 0
    ensures var r := GenerateVideo(cfg, musicUrl, fetch, candidate, compiles, maxRetries, uniforms, sin);
      r.Produced? && r.video.audio.Some? && r.video.audio.value.seconds > 0 ==>
        |r.video.frameNames| == r.video.audio.value.seconds * cfg.fps
  {
    SoundtrackDecidesLength(cfg, musicUrl, fetch, candidate, compiles, maxRetries, uniforms, sin);
    var r := GenerateVideo(cfg, musicUrl, fetch, candidate, compiles, maxRetries, uniforms, sin);
    if r.Produced? && r.video.audio.Some? && r.video.audio.value.seconds > 0 {
      PositiveProduct(r.video.audio.value.seconds, cfg.fps);
    }
  }

  lemma PositiveProduct(a: int, b: int)
    requires a > 0 && b > 0
    ensures a * b > 0
  {
  }

  /**
   * A track shorter than one second truncates to zero seconds: the run
   * renders no frame at all; in the model, the zero-second soundtrack is
   * attached.
   */
  lemma SubSecondTrackHasNoFrames(
    cfg: Config, candidate: nat -> string, compiles: string -> bool, maxRetries: nat,
    uniforms: string -> map<string, nat>, sin: real -> real, url: string, seconds: real)
    requires |url| > 0 && 0.0 <= seconds < 1.0
    ensures var r := GenerateVideo(cfg, Some(url), Fetched(Probed(seconds)), candidate, compiles, maxRetries, uniforms, sin);
      r.Produced? ==> |r.render.frames| == 0 && r.video.audio == Some(Soundtrack(AudioPath, 0))
  {
    assert TruncateToInt(seconds) == 0;
    assert InspectAudio(Some(url), Fetched(Probed(seconds))) == AudioPlan(0, Some(AudioPath));
    ProducedRun(cfg, Some(url), Fetched(Probed(seconds)), candidate, compiles, maxRetries, uniforms, sin);
  }

  /**
   * Frames never share a file. The encoder reads every frame file once, in
   * string order, and that is frame order exactly when the run has at most
   * 10000 frames.
   */
  lemma FrameNamesInOrder(
    cfg: Config, musicUrl: Option<string>, fetch: Fetch,
    candidate: nat -> string, compiles: string -> bool, maxRetries: nat,
    uniforms: string -> map<string, nat>, sin: real -> real)
    ensures var r := GenerateVideo(cfg, musicUrl, fetch, candidate, compiles, maxRetries, uniforms, sin);
      r.Produced? ==>
        var n := |r.render.frames|;
        && (forall i, j :: 0 <= i < j < n ==> r.render.frames[i].name != r.render.frames[j].name)
        && multiset(r.video.frameNames) == multiset(IndexNames(n))
        && (r.video.frameNames == IndexNames(n) <==> n <= 10000)
  {
    var r := GenerateVideo(cfg, musicUrl, fetch, candidate, compiles, maxRetries, uniforms, sin);
    ProducedRun(cfg, musicUrl, fetch, candidate, compiles, maxRetries, uniforms, sin);
    if r.Produced? {
      var frames := r.render.frames;
      var n := |frames|;
      PlanNames(n, cfg.fps, uniforms(r.render.shader), sin);
      forall i, j | 0 <= i < j < n ensures frames[i].name != frames[j].name {
        assert frames[i].name == FileNames(frames)[i] == FrameName(i);
        assert frames[j].name == FileNames(frames)[j] == FrameName(j);
        NamesDistinct(i, j);
      }
      ListingKeepsFrameOrder(n);
    }
  }

  /**
   * With the default configuration, no music URL and a first reply that
   * sanitises to a compiling shader, the run asks once, renders the five
   * default seconds at 30 frames per second, and attaches no soundtrack.
   */
  lemma SilentDefaultRun(
    candidate: nat -> string, compiles: string -> bool, maxRetries: nat,
    uniforms: string -> map<string, nat>, sin: real -> real, fetch: Fetch)
    requires maxRetries > 0
    requires CleanShader(candidate(0)).Some? && compiles(CleanShader(candidate(0)).value)
    ensures var r := GenerateVideo(Defaults, None, fetch, candidate, compiles, maxRetries, uniforms, sin);
      && r.Produced?
      && |r.video.frameNames| == 150
      && r.video.audio.None?
      && r.video.path == "temp/generated_video.mp4"
      && ShaderLoop(candidate, compiles, maxRetries).calls == 1
  {
    ShaderRetry.StopsAtFirstNonFailure(candidate, CleanShader, compiles, maxRetries, 0, None, 0);
  }

  /**
   * A seven-second track at 24 frames per second gives 168 frames and is
   * attached as a seven-second soundtrack.
   */
  lemma SevenSecondTrack(
    cfg: Config, candidate: nat -> string, compiles: string -> bool, maxRetries: nat,
    uniforms: string -> map<string, nat>, sin: real -> real, url: string)
    requires |url| > 0 && cfg.fps == 24
    ensures var r := GenerateVideo(cfg, Some(url), Fetched(Probed(7.0)), candidate, compiles, maxRetries, uniforms, sin);
      r.Produced? ==> |r.video.frameNames| == 168 && r.video.audio == Some(Soundtrack(AudioPath, 7))
  {
    assert TruncateToInt(7.0) == 7;
    SoundtrackDecidesLength(cfg, Some(url), Fetched(Probed(7.0)), candidate, compiles, maxRetries, uniforms, sin);
  }

}

=== FILE: results.dfy ===
/**
 * The optional value used wherever the modelled code either produces a
 * value or fails without further detail (Python's `None`, or an exception
 * whose payload the model does not need).
 */
module Results {

  datatype Option<+T> = None | Some(value: T)

}

=== FILE: sanitizer.dfy ===
/**
 * `clean_ai_shader` (scripts/video_generator.py): the sanitiser every
 * generated fragment shader goes through before it is staged and compiled.
 *
 * The steps, in the source's order: drop Markdown fences (a leading
 * "```" with an optional `glsl` tag at a line start, then every other
 * "```"), rename `fragCoord` and `gl_FragColor`, strip the text, split it
 * into lines, keep the non-blank lines that do not start with `//` (checked
 * before stripping the line), put a version pragma first if there is none,
 * and declare `fragColor` right after it if it is used but not declared.
 * When no line survives, the source fails indexing `lines[0]`; here that is
 * `None`.
 */
module Sanitizer {

  import opened Results
  import opened Strings

  const Fence := "```"
  const FragCoordName := "fragCoord"
  const FragCoordBuiltin := "gl_FragCoord.xy"
  const LegacyColorName := "gl_FragColor"
  const ColorName := "fragColor"
  const VersionPrefix := "#version"
  const DefaultVersion := "#version 330 core"
  const ColorDeclaration := "out vec4 fragColor;"
  const CommentPrefix := "//"

  /** ASCII lower case, the case folding `re.IGNORECASE` applies to `glsl`. */
  function LowerAscii(c: char): char {
    if 'A' <= c <= 'Z' then (c as int + 32) as char else c
  }

  /** `s` starts with the language tag `glsl`, in any letter case. */
  predicate StartsWithTag(s: string) {
    && |s| >= 4
    && LowerAscii(s[0]) == 'g' && LowerAscii(s[1]) == 'l'
    && LowerAscii(s[2]) == 's' && LowerAscii(s[3]) == 'l'
  }

  /**
   * `re.sub(r"^```(?:glsl)?", "", s, flags=re.IGNORECASE | re.MULTILINE)`:
   * a fence, with the tag when one follows, is deleted where it opens a
   * line. `atLineStart` says whether `s[0]` opens a line of the whole text.
   */
  function StripFenceTags(s: string, atLineStart: bool): (r: string)
    ensures |r| <= |s|
    decreases |s|
  {
    if |s| == 0 then ""
    else if atLineStart && StartsWith(s, Fence) then
      var rest := s[|Fence|..];
      if StartsWithTag(rest) then StripFenceTags(rest[4..], false)
      else StripFenceTags(rest, false)
    else [s[0]] + StripFenceTags(s[1..], s[0] == '\n')
  }

  /** The text after the fence removal and the two renamings. */
  function Rewrite(code: string): string {
    var unfenced := Replace(StripFenceTags(code, true), Fence, "");
    Replace(Replace(unfenced, FragCoordName, FragCoordBuiltin), LegacyColorName, ColorName)
  }

  /** A line the filter keeps: not blank, and not starting with `//` as it stands. */
  predicate Survives(line: string) {
    !Blank(line) && !StartsWith(line, CommentPrefix)
  }

  /** Every line avoids `q`. */
  predicate AllAvoid(lines: seq<string>, q: string) {
    forall j :: 0 <= j < |lines| ==> !Contains(lines[j], q)
  }

  /** Some line contains `q` (`any(q in line for line in lines)`). */
  predicate AnyContains(lines: seq<string>, q: string) {
    exists j | 0 <= j < |lines| :: Contains(lines[j], q)
  }

  /** `[line.strip() for line in lines if line.strip() and not line.startswith("//")]` */
  function KeepLines(lines: seq<string>): (kept: seq<string>)
    ensures |kept| <= |lines|
    ensures forall j :: 0 <= j < |kept| ==> |kept[j]| > 0 && IsStripped(kept[j])
  {
    if |lines| == 0 then []
    else
      var rest := KeepLines(lines[1..]);
      if Survives(lines[0]) then
        var line := Strip(lines[0]);
        assert |line| > 0;
        [line] + rest
      else rest
  }

  /** The filter keeps nothing exactly when no line survives it. */
  lemma {:induction false} KeepNone(lines: seq<string>)
    ensures |KeepLines(lines)| == 0 <==> forall i :: 0 <= i < |lines| ==> !Survives(lines[i])
  {
    if |lines| > 0 {
      KeepNone(lines[1..]);
      assert forall i :: 1 <= i < |lines| ==> lines[i] == lines[1..][i - 1];
    }
  }

  /** How many of the lines pass the filter, counted on the lines as they stand. */
  function CountSurvivors(lines: seq<string>): nat {
    if |lines| == 0 then 0
    else (if Survives(lines[0]) then 1 else 0) + CountSurvivors(lines[1..])
  }

  /** The filter keeps one line for every line that passes it. */
  lemma {:induction false} KeepCount(lines: seq<string>)
    ensures |KeepLines(lines)| == CountSurvivors(lines)
  {
    if |lines| > 0 {
      KeepCount(lines[1..]);
    }
  }

  /**
   * The filter keeps the stripped form of every line that passes it, and
   * nothing else: each kept line is the stripped form of a passing line.
   */
  lemma {:induction false} KeepMembers(lines: seq<string>)
    ensures forall l :: l in lines && Survives(l) ==> Strip(l) in KeepLines(lines)
    ensures forall k :: k in KeepLines(lines) ==> exists l :: l in lines && Survives(l) && Strip(l) == k
  {
    if |lines| > 0 {
      var rest := lines[1..];
      KeepMembers(rest);
      var head := if Survives(lines[0]) then [Strip(lines[0])] else [];
      assert KeepLines(lines) == head + KeepLines(rest);
      assert lines == [lines[0]] + rest;
      forall l | l in lines && Survives(l) ensures Strip(l) in KeepLines(lines) {
        if l != lines[0] {
          assert l in rest;
        }
      }
      forall k | k in KeepLines(lines) ensures exists l :: l in lines && Survives(l) && Strip(l) == k {
        if k in head {
          assert lines[0] in lines;
        } else {
          assert k in KeepLines(rest);
          var l :| l in rest && Survives(l) && Strip(l) == k;
          assert l in lines;
        }
      }
    }
  }

  /** The filter works line by line: filtering two parts filters their concatenation. */
  lemma {:induction false} KeepAppend(a: seq<string>, b: seq<string>)
    ensures KeepLines(a + b) == KeepLines(a) + KeepLines(b)
    decreases |a|
  {
    if |a| == 0 {
      assert a + b == b;
    } else {
      assert (a + b)[0] == a[0] && (a + b)[1..] == a[1..] + b;
      KeepAppend(a[1..], b);
      var head := if Survives(a[0]) then [Strip(a[0])] else [];
      assert KeepLines(a + b) == head + (KeepLines(a[1..]) + KeepLines(b));
      assert KeepLines(a) == head + KeepLines(a[1..]);
    }
  }

  /** The first kept line is the stripped form of the first line that passes the filter. */
  lemma KeepFirst(lines: seq<string>, i: int)
    requires 0 <= i < |lines| && Survives(lines[i])
    requires forall j :: 0 <= j < i ==> !Survives(lines[j])
    ensures |KeepLines(lines)| > 0 && KeepLines(lines)[0] == Strip(lines[i])
  {
    var front, back := lines[..i], lines[i..];
    assert lines == front + back;
    KeepAppend(front, back);
    assert forall j :: 0 <= j < |front| ==> front[j] == lines[j];
    KeepNone(front);
    assert back[0] == lines[i];
    assert KeepLines(back) == [Strip(lines[i])] + KeepLines(back[1..]);
  }

  /** Puts `#version 330 core` first unless the first line is a version pragma. */
  function WithPragma(lines: seq<string>): (r: seq<string>)
    requires |lines| > 0
    ensures |r| == |lines| || |r| == |lines| + 1
    ensures |r| == |lines| <==> StartsWith(lines[0], VersionPrefix)
    ensures StartsWith(r[0], VersionPrefix)
    ensures r[|r| - |lines|..] == lines
  {
    if StartsWith(lines[0], VersionPrefix) then lines else [DefaultVersion] + lines
  }

  /**
   * Declares `fragColor` at index 1 when some line uses it and no line
   * declares it; otherwise leaves the lines alone.
   */
  function WithDeclaration(lines: seq<string>): (r: seq<string>)
    requires |lines| > 0
    ensures |r| == |lines| || |r| == |lines| + 1
    ensures |r| == |lines| + 1 <==> AnyContains(lines, ColorName) && !AnyContains(lines, ColorDeclaration)
    ensures |r| == |lines| ==> r == lines
    ensures |r| == |lines| + 1 ==> r[0] == lines[0] && r[1] == ColorDeclaration && r[2..] == lines[1..]
    ensures AnyContains(r, ColorName) ==> AnyContains(r, ColorDeclaration)
  {
    if AnyContains(lines, ColorName) && !AnyContains(lines, ColorDeclaration) then
      var r := [lines[0], ColorDeclaration] + lines[1..];
      assert Contains(r[1], ColorDeclaration) by {
        assert OccursAt(r[1], ColorDeclaration, 0);
      }
      assert r[..1] + r[2..] == lines;
      r
    else lines
  }

  /** The line list the sanitiser returns, or `None` where the source fails at `lines[0]`. */
  function CleanLines(code: string): (r: Option<seq<string>>)
    ensures r.None? <==> forall l :: l in SplitLines(Strip(Rewrite(code))) ==> !Survives(l)
    ensures r.Some? ==> |r.value| > 0 && StartsWith(r.value[0], VersionPrefix)
  {
    var kept := KeepLines(SplitLines(Strip(Rewrite(code))));
    KeepNone(SplitLines(Strip(Rewrite(code))));
    if |kept| == 0 then None
    else
      var lines := WithDeclaration(WithPragma(kept));
      Some(lines)
  }

  /** `clean_ai_shader(code)`: the lines joined with line feeds. */
  function CleanShader(code: string): (r: Option<string>)
    ensures r.None? <==> CleanLines(code).None?
    ensures r.Some? ==> StartsWith(r.value, VersionPrefix)
  {
    match CleanLines(code)
    case None => None
    case Some(lines) =>
      JoinBegins(lines, VersionPrefix);
      Some(Join(lines))
  }

}

=== FILE: sanitizer_properties.dfy ===
/**
 * What `clean_ai_shader` guarantees about the text it returns: no fence is
 * left, neither old identifier is left, the first line is a version pragma,
 * every line is non-empty and stripped (so the `strip()` before staging
 * changes nothing), and a second pass changes nothing unless some output
 * line starts with `//` (the source tests comments before stripping a line).
 */
module SanitizerProperties {

  import opened Results
  import opened Strings
  import opened Sanitizer

  // ---------------------------------------------------------------------
  // Fence removal

  /** A character other than a backquote is copied by the fence replacement. */
  lemma FenceFreeHead(u: string)
    ensures |u| > 0 && u[0] != '`' ==> Replace(u, Fence, "") == [u[0]] + Replace(u[1..], Fence, "")
  {
  }

  /** No text left by `replace("```", "")` starts with a fence. */
  lemma {:induction false} NoFenceAtStart(t: string)
    ensures !StartsWith(Replace(t, Fence, ""), Fence)
    decreases |t|
  {
    if |t| == 0 {
    } else if StartsWith(t, Fence) {
      NoFenceAtStart(t[|Fence|..]);
    } else if t[0] != '`' {
      FenceFreeHead(t);
    } else if |t| == 1 {
      assert Replace(t, Fence, "") == "`";
    } else if t[1] != '`' {
      FenceFreeHead(t[1..]);
      assert Replace(t, Fence, "") == [t[0]] + Replace(t[1..], Fence, "");
    } else {
      var u := t[1..];
      if |t| >= 3 {
        assert t[..3] == [t[0], t[1], t[2]];
      }
      assert |t| == 2 || t[2] != '`';
      assert !StartsWith(u, Fence);
      assert Replace(t, Fence, "") == [t[0]] + Replace(u, Fence, "");
      assert Replace(u, Fence, "") == [u[0]] + Replace(u[1..], Fence, "");
      if |t| > 2 {
        FenceFreeHead(t[2..]);
        assert u[1..] == t[2..];
      }
    }
  }

  /** `replace("```", "")` leaves no fence anywhere. */
  lemma {:induction false} FenceFree(t: string)
    ensures !Contains(Replace(t, Fence, ""), Fence)
    decreases |t|
  {
    var r := Replace(t, Fence, "");
    if |t| > 0 {
      NoFenceAtStart(t);
      if StartsWith(t, Fence) {
        FenceFree(t[|Fence|..]);
        assert r == Replace(t[|Fence|..], Fence, "");
      } else {
        FenceFree(t[1..]);
        assert r == [t[0]] + Replace(t[1..], Fence, "");
        assert r[1..] == Replace(t[1..], Fence, "");
        ContainsCons(r, Fence);
      }
    }
  }

  /** A text without a fence goes through the line-start fence removal unchanged. */
  lemma {:induction false} FenceTagsUntouched(s: string, atLineStart: bool)
    requires !Contains(s, Fence)
    ensures StripFenceTags(s, atLineStart) == s
    decreases |s|
  {
    if |s| > 0 {
      StartsWithContains(s, Fence);
      ContainsInWindow(s, 1, |s|, Fence);
      assert s[1..|s|] == s[1..];
      FenceTagsUntouched(s[1..], s[0] == '\n');
    }
  }

  /** A character of a `glsl` tag is a letter, never a line feed. */
  lemma TagHasNoLineFeed(tag: string)
    requires |tag| == 4 && StartsWithTag(tag)
    ensures '\n' !in tag
  {
    assert LowerAscii('\n') == '\n';
  }

  /**
   * The fence removal handles the lines up to a line feed on their own: no
   * fence or tag reaches across it, and the text after it opens a line.
   */
  lemma {:induction false} FenceTagsSplit(a: string, b: string, atLineStart: bool)
    requires |a| > 0 && a[|a| - 1] == '\n'
    ensures StripFenceTags(a + b, atLineStart) == StripFenceTags(a, atLineStart) + StripFenceTags(b, true)
    decreases |a|, 1
  {
    FenceWithin(a, b);
    if atLineStart && StartsWith(a, Fence) {
      FenceOpensSplit(a, b);
    } else {
      CharacterSplit(a, b, atLineStart);
    }
  }

  /** `FenceTagsSplit` when `a` opens with a fence at a line start. */
  lemma {:induction false} FenceOpensSplit(a: string, b: string)
    requires |a| > |Fence| && a[|a| - 1] == '\n' && StartsWith(a, Fence)
    requires StartsWith(a + b, Fence)
    ensures StripFenceTags(a + b, true) == StripFenceTags(a, true) + StripFenceTags(b, true)
    decreases |a|, 0
  {
    var u := a[|Fence|..];
    DropFront(a, b, |Fence|);
    TagWithin(u, b);
    if StartsWithTag(u) {
      DropFront(u, b, 4);
      assert StripFenceTags(a + b, true) == StripFenceTags(u[4..] + b, false);
      FenceTagsSplit(u[4..], b, false);
    } else {
      assert StripFenceTags(a + b, true) == StripFenceTags(u + b, false);
      FenceTagsSplit(u, b, false);
    }
  }

  /** `FenceTagsSplit` when the first character of `a` is copied. */
  lemma {:induction false} CharacterSplit(a: string, b: string, atLineStart: bool)
    requires |a| > 0 && a[|a| - 1] == '\n'
    requires !(atLineStart && StartsWith(a, Fence)) && !(atLineStart && StartsWith(a + b, Fence))
    ensures StripFenceTags(a + b, atLineStart) == StripFenceTags(a, atLineStart) + StripFenceTags(b, true)
    decreases |a|, 0
  {
    var next := a[0] == '\n';
    DropFront(a, b, 1);
    assert (a + b)[0] == a[0];
    var tail := StripFenceTags(a[1..] + b, next);
    assert StripFenceTags(a + b, atLineStart) == [a[0]] + tail;
    if |a| == 1 {
      assert a[1..] + b == b && StripFenceTags(a[1..], next) == "";
    } else {
      FenceTagsSplit(a[1..], b, next);
    }
    assert tail == StripFenceTags(a[1..], next) + StripFenceTags(b, true);
    assert StripFenceTags(a, atLineStart) == [a[0]] + StripFenceTags(a[1..], next);
    Regroup([a[0]], StripFenceTags(a[1..], next), StripFenceTags(b, true));
  }

  /** Dropping a front part of `a` from `a + b`. */
  lemma DropFront(a: string, b: string, k: int)
    requires 0 <= k <= |a|
    ensures (a + b)[k..] == a[k..] + b
  {
  }

  /** A fence at the front of `a + b` lies inside `a` when `a` ends with a line feed. */
  lemma FenceWithin(a: string, b: string)
    requires |a| > 0 && a[|a| - 1] == '\n'
    ensures StartsWith(a + b, Fence) <==> StartsWith(a, Fence)
    ensures StartsWith(a, Fence) ==> |a| > |Fence|
  {
    var s := a + b;
    assert s[|a| - 1] == '\n';
    if StartsWith(a, Fence) {
      assert s[..3] == a[..3];
    }
  }

  /** A tag at the front of `u + b` lies inside `u` when `u` ends with a line feed. */
  lemma TagWithin(u: string, b: string)
    requires |u| > 0 && u[|u| - 1] == '\n'
    ensures StartsWithTag(u + b) <==> StartsWithTag(u)
    ensures StartsWithTag(u) ==> |u| > 4
  {
    assert LowerAscii('\n') == '\n';
    assert (u + b)[|u| - 1] == '\n';
  }

  /**
   * Text without a line feed is copied by the fence removal: no fence can
   * open a line in it, unless it is at a line start and opens with a
   * backquote.
   */
  lemma {:induction false} CopiedInLine(u: string, v: string, atLineStart: bool)
    requires '\n' !in u
    requires atLineStart ==> |u| > 0 && u[0] != '`'
    ensures StripFenceTags(u + v, atLineStart) == u + StripFenceTags(v, false)
    decreases |u|
  {
    if |u| > 0 {
      assert (u + v)[0] == u[0] && (u + v)[1..] == u[1..] + v;
      CopiedInLine(u[1..], v, false);
      assert u == [u[0]] + u[1..];
    } else {
      assert u + v == v;
    }
  }

  /**
   * A fence that opens a line goes, with a `glsl` tag after it in any
   * letter case; the text after the tag stays.
   */
  lemma TagDroppedAtLineStart(before: string, tag: string, rest: string)
    requires |before| == 0 || before[|before| - 1] == '\n'
    requires |tag| == 4 && StartsWithTag(tag)
    ensures StripFenceTags(before + Fence + tag + rest, true) ==
      StripFenceTags(before, true) + StripFenceTags(rest, false)
  {
    var t := Fence + tag + rest;
    assert StartsWith(t, Fence);
    assert t[|Fence|..] == tag + rest;
    assert StartsWithTag(tag + rest);
    assert (tag + rest)[4..] == rest;
    assert before + Fence + tag + rest == before + t;
    if |before| > 0 {
      FenceTagsSplit(before, t, true);
    } else {
      assert before + t == t;
    }
  }

  /**
   * A fence that opens a line with no `glsl` after it, such as the closing
   * fence, goes on its own; everything after it stays.
   */
  lemma FenceDroppedAtLineStart(before: string, rest: string)
    requires |before| == 0 || before[|before| - 1] == '\n'
    requires !StartsWithTag(rest)
    ensures StripFenceTags(before + Fence + rest, true) ==
      StripFenceTags(before, true) + StripFenceTags(rest, false)
  {
    var t := Fence + rest;
    assert StartsWith(t, Fence);
    assert t[|Fence|..] == rest;
    assert before + Fence + rest == before + t;
    if |before| > 0 {
      FenceTagsSplit(before, t, true);
    } else {
      assert before + t == t;
    }
  }

  /**
   * A fence after other text on its line is not at a line start: the fence
   * removal keeps it and the `glsl` after it. The later `replace` takes the
   * fence out and leaves the tag in the text.
   */
  lemma TagKeptMidLine(before: string, pre: string, tag: string, rest: string)
    requires |before| == 0 || before[|before| - 1] == '\n'
    requires |pre| > 0 && pre[0] != '`' && '\n' !in pre
    requires |tag| == 4 && StartsWithTag(tag)
    ensures var line := pre + Fence + tag;
      StripFenceTags(before + line + rest, true) ==
      StripFenceTags(before, true) + line + StripFenceTags(rest, false)
  {
    TagHasNoLineFeed(tag);
    var line := pre + Fence + tag;
    assert line[0] == pre[0];
    CopiedInLine(line, rest, true);
    var t := line + rest;
    Regroup(before, line, rest);
    Regroup(StripFenceTags(before, true), line, StripFenceTags(rest, false));
    if |before| > 0 {
      FenceTagsSplit(before, t, true);
    } else {
      assert before + t == t;
    }
  }

  // ---------------------------------------------------------------------
  // The replacement strings never help spell a pattern

  /** When `q` starts with a character `rep` lacks, no suffix of `rep` agrees with `q`. */
  lemma SuffixesClash(rep: string, q: string)
    requires |q| > 0 && q[0] !in rep
    ensures forall i :: 0 <= i < |rep| ==> Clash(rep[i..], q)
  {
    forall i | 0 <= i < |rep| ensures Clash(rep[i..], q) {
      assert rep[i..][0] == rep[i];
    }
  }

  /** When `rep` starts with a character missing from `q[1..]`, no proper suffix of `q` agrees with `rep`. */
  lemma TailsClash(rep: string, q: string)
    requires |rep| > 0 && |q| > 0 && rep[0] !in q[1..]
    ensures forall k :: 1 <= k < |q| ==> Clash(q[k..], rep)
  {
    forall k | 1 <= k < |q| ensures Clash(q[k..], rep) {
      assert q[k..][0] == q[1..][k - 1];
    }
  }

  lemma BuiltinAvoidsFence()
    ensures NoOverlap(FragCoordBuiltin, Fence)
  {
    SuffixesClash(FragCoordBuiltin, Fence);
    TailsClash(FragCoordBuiltin, Fence);
  }

  lemma ColorNameAvoidsFence()
    ensures NoOverlap(ColorName, Fence)
  {
    SuffixesClash(ColorName, Fence);
    TailsClash(ColorName, Fence);
  }

  lemma BuiltinAvoidsFragCoord()
    ensures NoOverlap(FragCoordBuiltin, FragCoordName)
  {
    var rep, q := FragCoordBuiltin, FragCoordName;
    SuffixesClash(rep, q);
    forall k | 1 <= k < |q| ensures Clash(q[k..], rep) {
      if k == 3 {
        assert q[k..][1] != rep[1];
      } else {
        assert q[k..][0] != rep[0];
      }
    }
  }

  lemma ColorNameAvoidsFragCoord()
    ensures NoOverlap(ColorName, FragCoordName)
  {
    var rep, q := ColorName, FragCoordName;
    forall i | 0 <= i < |rep| ensures Clash(rep[i..], q) {
      if i == 0 {
        assert rep[i..][6] != q[6];
      } else {
        assert rep[i..][0] != q[0];
      }
    }
    TailsClash(rep, q);
  }

  lemma ColorNameAvoidsLegacy()
    ensures NoOverlap(ColorName, LegacyColorName)
  {
    var rep, q := ColorName, LegacyColorName;
    forall i | 0 <= i < |rep| ensures Clash(rep[i..], q) {
      if i == 3 {
        assert rep[i..][1] != q[1];
      } else {
        assert rep[i..][0] != q[0];
      }
    }
    TailsClash(rep, q);
  }

  /**
   * After the rewriting stage the text holds no fence, no `fragCoord` and
   * no `gl_FragColor`.
   */
  lemma {:induction false} RewriteAvoids(code: string)
    ensures !Contains(Rewrite(code), Fence)
    ensures !Contains(Rewrite(code), FragCoordName)
    ensures !Contains(Rewrite(code), LegacyColorName)
  {
    var u := Replace(StripFenceTags(code, true), Fence, "");
    var v := Replace(u, FragCoordName, FragCoordBuiltin);
    var w := Replace(v, LegacyColorName, ColorName);
    FenceFree(StripFenceTags(code, true));
    BuiltinAvoidsFence();
    ReplaceCreatesNone(u, FragCoordName, FragCoordBuiltin, Fence);
    ColorNameAvoidsFence();
    ReplaceCreatesNone(v, LegacyColorName, ColorName, Fence);
    BuiltinAvoidsFragCoord();
    ReplaceCreatesNone(u, FragCoordName, FragCoordBuiltin, FragCoordName);
    ColorNameAvoidsFragCoord();
    ReplaceCreatesNone(v, LegacyColorName, ColorName, FragCoordName);
    ColorNameAvoidsLegacy();
    ReplaceCreatesNone(v, LegacyColorName, ColorName, LegacyColorName);
  }

  // ---------------------------------------------------------------------
  // From the rewritten text to the output lines

  /** A pattern absent from every input line is absent from every kept line. */
  lemma {:induction false} KeepAvoids(lines: seq<string>, q: string)
    requires AllAvoid(lines, q)
    ensures AllAvoid(KeepLines(lines), q)
  {
    if |lines| > 0 {
      KeepAvoids(lines[1..], q);
      StripAvoids(lines[0], q);
    }
  }

  /** Kept lines hold no line feed when the input lines hold none. */
  lemma {:induction false} KeepSingleLines(lines: seq<string>)
    requires forall i :: 0 <= i < |lines| ==> '\n' !in lines[i]
    ensures forall j :: 0 <= j < |KeepLines(lines)| ==> '\n' !in KeepLines(lines)[j]
  {
    if |lines| > 0 {
      KeepSingleLines(lines[1..]);
      StripKeepsOut(lines[0], '\n');
    }
  }

  /** Lines that all survive the filter and are already stripped are kept as they are. */
  lemma {:induction false} KeepAll(lines: seq<string>)
    requires forall i :: 0 <= i < |lines| ==> Survives(lines[i]) && IsStripped(lines[i])
    ensures KeepLines(lines) == lines
  {
    if |lines| > 0 {
      KeepAll(lines[1..]);
      StripFixes(lines[0]);
    }
  }

  /** A property every kept line and both inserted lines have, every output line has. */
  lemma AssembledLines(kept: seq<string>, P: string -> bool)
    requires |kept| > 0
    requires forall j :: 0 <= j < |kept| ==> P(kept[j])
    requires P(DefaultVersion) && P(ColorDeclaration)
    ensures forall j :: 0 <= j < |WithDeclaration(WithPragma(kept))| ==> P(WithDeclaration(WithPragma(kept))[j])
  {
    var a := WithPragma(kept);
    assert forall j :: 0 <= j < |a| ==> P(a[j]) by {
      if |a| != |kept| {
        assert a == [DefaultVersion] + kept;
      }
    }
    var b := WithDeclaration(a);
    if |b| != |a| {
      assert b == [a[0], ColorDeclaration] + a[1..];
    }
  }

  /** The output lines of a successful run avoid any pattern the rewritten text and both inserted lines avoid. */
  lemma LinesAvoid(code: string, q: string)
    requires |q| > 0 && '\n' !in q
    requires !Contains(Rewrite(code), q)
    requires !Contains(DefaultVersion, q) && !Contains(ColorDeclaration, q)
    ensures CleanLines(code).Some? ==> AllAvoid(CleanLines(code).value, q)
  {
    var text := Strip(Rewrite(code));
    StripAvoids(Rewrite(code), q);
    var split := SplitLines(text);
    forall j | 0 <= j < |split| ensures !Contains(split[j], q) {
      ContainsInLine(text, j, q);
    }
    var kept := KeepLines(split);
    KeepAvoids(split, q);
    if |kept| > 0 {
      AssembledLines(kept, l => !Contains(l, q));
    }
  }

  /** The returned text avoids any pattern the rewritten text and both inserted lines avoid. */
  lemma TextAvoids(code: string, q: string)
    requires |q| > 0 && '\n' !in q
    requires !Contains(Rewrite(code), q)
    requires !Contains(DefaultVersion, q) && !Contains(ColorDeclaration, q)
    ensures CleanShader(code).Some? ==> !Contains(CleanShader(code).value, q)
  {
    LinesAvoid(code, q);
    if CleanLines(code).Some? {
      JoinAvoids(CleanLines(code).value, q);
    }
  }

  /** No Markdown fence survives the sanitiser. */
  lemma NoFenceInOutput(code: string)
    ensures CleanShader(code).Some? ==> !Contains(CleanShader(code).value, Fence)
  {
    RewriteAvoids(code);
    AbsentCharacter(DefaultVersion, Fence, 0);
    AbsentCharacter(ColorDeclaration, Fence, 0);
    TextAvoids(code, Fence);
  }

  /** No `fragCoord` survives the sanitiser: each one became `gl_FragCoord.xy` (see `ReplaceAt`). */
  lemma NoFragCoordInOutput(code: string)
    ensures CleanShader(code).Some? ==> !Contains(CleanShader(code).value, FragCoordName)
  {
    RewriteAvoids(code);
    AbsentCharacter(DefaultVersion, FragCoordName, 0);
    AbsentCharacter(ColorDeclaration, FragCoordName, 8);
    TextAvoids(code, FragCoordName);
  }

  /** No `gl_FragColor` survives the sanitiser: it became `fragColor`. */
  lemma NoLegacyColorInOutput(code: string)
    ensures CleanShader(code).Some? ==> !Contains(CleanShader(code).value, LegacyColorName)
  {
    RewriteAvoids(code);
    AbsentCharacter(DefaultVersion, LegacyColorName, 0);
    AbsentCharacter(ColorDeclaration, LegacyColorName, 2);
    TextAvoids(code, LegacyColorName);
  }

  // ---------------------------------------------------------------------
  // Shape of the output

  /** Every output line is non-empty, stripped and free of line feeds. */
  predicate WellFormedLine(l: string) {
    |l| > 0 && IsStripped(l) && '\n' !in l
  }

  lemma InsertedLinesWellFormed()
    ensures WellFormedLine(DefaultVersion) && WellFormedLine(ColorDeclaration)
  {
  }

  lemma LinesWellFormed(code: string)
    ensures CleanLines(code).Some? ==>
      forall j :: 0 <= j < |CleanLines(code).value| ==> WellFormedLine(CleanLines(code).value[j])
  {
    var split := SplitLines(Strip(Rewrite(code)));
    var kept := KeepLines(split);
    KeepSingleLines(split);
    assert forall j :: 0 <= j < |kept| ==> WellFormedLine(kept[j]);
    if |kept| > 0 {
      InsertedLinesWellFormed();
      AssembledLines(kept, WellFormedLine);
      assert CleanLines(code) == Some(WithDeclaration(WithPragma(kept)));
    }
  }

  /** Joining well-formed lines gives a text that strips to itself and splits back into them. */
  lemma JoinedShape(lines: seq<string>)
    requires |lines| > 0
    requires forall j :: 0 <= j < |lines| ==> WellFormedLine(lines[j])
    ensures Strip(Join(lines)) == Join(lines)
    ensures SplitLines(Join(lines)) == lines
  {
    JoinStripped(lines);
    SplitJoin(lines);
  }

  /**
   * The returned text starts with a version pragma, `strip()` leaves it
   * alone (so the staged file holds exactly it), and splitting it gives
   * back the line list it was joined from.
   */
  lemma OutputShape(code: string)
    ensures CleanShader(code).Some? ==>
      && StartsWith(CleanShader(code).value, VersionPrefix)
      && Strip(CleanShader(code).value) == CleanShader(code).value
      && SplitLines(CleanShader(code).value) == CleanLines(code).value
  {
    if CleanLines(code).Some? {
      var lines := CleanLines(code).value;
      assert CleanShader(code).value == Join(lines);
      LinesWellFormed(code);
      JoinBegins(lines, VersionPrefix);
      JoinedShape(lines);
    }
  }

  /** Wherever the output uses `fragColor`, it also declares it. */
  lemma OutputDeclaresColor(code: string)
    ensures CleanLines(code).Some? && AnyContains(CleanLines(code).value, ColorName) ==>
      AnyContains(CleanLines(code).value, ColorDeclaration)
  {
  }

  /** The inserted pragma neither uses nor declares `fragColor`. */
  lemma PragmaAddsNoUse(kept: seq<string>, q: string)
    requires |kept| > 0 && !Contains(DefaultVersion, q)
    ensures AnyContains(WithPragma(kept), q) <==> AnyContains(kept, q)
  {
    var r := WithPragma(kept);
    if |r| != |kept| {
      assert r == [DefaultVersion] + kept;
      if AnyContains(r, q) {
        var j :| 0 <= j < |r| && Contains(r[j], q);
        assert j > 0 && r[j] == kept[j - 1];
      }
      if AnyContains(kept, q) {
        var j :| 0 <= j < |kept| && Contains(kept[j], q);
        assert r[j + 1] == kept[j];
      }
    }
  }

  /**
   * The output has one line per line that passes the filter, plus one when
   * the first kept line is no version pragma, plus one when the kept lines
   * use `fragColor` without declaring it.
   */
  lemma LineCount(code: string)
    ensures var split := SplitLines(Strip(Rewrite(code)));
      var kept := KeepLines(split);
      CleanLines(code).Some? ==>
        && |kept| > 0
        && |CleanLines(code).value| ==
             CountSurvivors(split)
             + (if StartsWith(kept[0], VersionPrefix) then 0 else 1)
             + (if AnyContains(kept, ColorName) && !AnyContains(kept, ColorDeclaration) then 1 else 0)
  {
    var split := SplitLines(Strip(Rewrite(code)));
    var kept := KeepLines(split);
    KeepCount(split);
    if |kept| > 0 {
      AbsentCharacter(DefaultVersion, ColorName, 0);
      AbsentCharacter(DefaultVersion, ColorDeclaration, 9);
      PragmaAddsNoUse(kept, ColorName);
      PragmaAddsNoUse(kept, ColorDeclaration);
      assert CleanLines(code) == Some(WithDeclaration(WithPragma(kept)));
    }
  }

  /**
   * The output's first line comes from the first input line that passes the
   * filter: that line, stripped, when it is a version pragma, and
   * `#version 330 core` otherwise.
   */
  lemma FirstLineDecidesPragma(code: string, i: int)
    requires 0 <= i < |SplitLines(Strip(Rewrite(code)))|
    requires Survives(SplitLines(Strip(Rewrite(code)))[i])
    requires forall j :: 0 <= j < i ==> !Survives(SplitLines(Strip(Rewrite(code)))[j])
    ensures CleanLines(code).Some?
    ensures var first := Strip(SplitLines(Strip(Rewrite(code)))[i]);
      CleanLines(code).value[0] == if StartsWith(first, VersionPrefix) then first else DefaultVersion
  {
    var split := SplitLines(Strip(Rewrite(code)));
    KeepFirst(split, i);
    var kept := KeepLines(split);
    assert CleanLines(code) == Some(WithDeclaration(WithPragma(kept)));
  }

  // ---------------------------------------------------------------------
  // Idempotence

  /**
   * Sanitising the sanitiser's output again gives the same text, provided
   * no output line starts with `//`. Such a line can only come from an
   * indented comment, which the first pass keeps (it tests the unstripped
   * line) and strips, and which the second pass then drops.
   */
  lemma Idempotent(code: string)
    requires CleanShader(code).Some?
    requires forall j :: 0 <= j < |CleanLines(code).value| ==> !StartsWith(CleanLines(code).value[j], CommentPrefix)
    ensures CleanShader(CleanShader(code).value) == CleanShader(code)
  {
    var lines := CleanLines(code).value;
    var out := CleanShader(code).value;
    OutputUnrewritten(code);
    OutputShape(code);
    LinesWellFormed(code);
    assert SplitLines(Strip(Rewrite(out))) == lines;
    forall j | 0 <= j < |lines| ensures Survives(lines[j]) && IsStripped(lines[j]) {
      assert !IsSpace(lines[j][0]);
    }
    KeepAll(lines);
    assert CleanLines(out) == Some(lines);
  }


  /** The output holds none of the rewritten patterns, so rewriting it changes nothing. */
  lemma OutputUnrewritten(code: string)
    requires CleanShader(code).Some?
    ensures Rewrite(CleanShader(code).value) == CleanShader(code).value
  {
    var out := CleanShader(code).value;
    NoFenceInOutput(code);
    NoFragCoordInOutput(code);
    NoLegacyColorInOutput(code);
    FenceTagsUntouched(out, true);
    ReplaceAbsent(out, Fence, "");
    ReplaceAbsent(out, FragCoordName, FragCoordBuiltin);
    ReplaceAbsent(out, LegacyColorName, ColorName);
  }

  /** A text with no backquote and no capital C holds none of the three patterns, so it is not rewritten. */
  lemma RewriteUntouched(s: string)
    requires '`' !in s && 'C' !in s
    ensures Rewrite(s) == s
  {
    AbsentCharacter(s, Fence, 0);
    FenceTagsUntouched(s, true);
    ReplaceAbsent(s, Fence, "");
    AbsentCharacter(s, FragCoordName, 4);
    ReplaceAbsent(s, FragCoordName, FragCoordBuiltin);
    AbsentCharacter(s, LegacyColorName, 7);
    ReplaceAbsent(s, LegacyColorName, ColorName);
  }

  /** A line that is stripped already and neither blank nor a comment is kept as it is. */
  lemma KeptAsIs(l: string)
    requires |l| > 0 && IsStripped(l) && !StartsWith(l, CommentPrefix)
    ensures Survives(l) && Strip(l) == l
  {
    assert !IsSpace(l[0]);
    StripFixes(l);
  }

  lemma CommentSampleFixed()
    ensures Strip(Rewrite("a\n //")) == "a\n //"
  {
    var code := "a\n //";
    RewriteUntouched(code);
    assert code[0] == 'a' && code[4] == '/';
    assert IsStripped(code);
    StripFixes(code);
  }

  lemma CommentLines()
    ensures SplitLines("a\n //") == ["a", " //"]
  {
    var lines := ["a", " //"];
    assert Join(lines) == "a\n //" by {
      assert lines[1..] == [" //"];
    }
    SplitJoin(lines);
  }

  lemma CommentSample()
    ensures SplitLines(Strip(Rewrite("a\n //"))) == ["a", " //"]
  {
    CommentSampleFixed();
    CommentLines();
  }

  lemma IndentedCommentStripped()
    ensures Survives(" //") && Strip(" //") == "//"
  {
    var l := " //";
    assert l[1..] == "//";
    assert IsStripped("//");
    StripFixes("//");
    assert Strip(l) == Strip(l[1..]);
    assert l[1] == '/';
    assert !Blank(l);
    assert !StartsWith(l, CommentPrefix);
  }

  /** The filter handles the first line on its own and the rest after it. */
  lemma KeepCons(x: string, rest: seq<string>)
    ensures KeepLines([x] + rest) == (if Survives(x) then [Strip(x)] else []) + KeepLines(rest)
  {
    assert ([x] + rest)[1..] == rest;
  }

  /** The filter over two lines that both survive keeps the first as it is and strips the second. */
  lemma KeepBoth(x: string, y: string)
    requires Survives(x) && Strip(x) == x && Survives(y)
    ensures KeepLines([x, y]) == [x, Strip(y)]
  {
    KeepCons(y, []);
    assert KeepLines([y]) == [Strip(y)] by {
      assert [y] == [y] + [];
    }
    KeepCons(x, [y]);
    assert [x, y] == [x] + [y];
  }

  /** The filter over three lines drops a final comment and keeps the others as they are. */
  lemma KeepDropLast(x: string, y: string, z: string)
    requires Survives(x) && Strip(x) == x && Survives(y) && Strip(y) == y && !Survives(z)
    ensures KeepLines([x, y, z]) == [x, y]
  {
    KeepCons(z, []);
    assert KeepLines([z]) == [] by {
      assert [z] == [z] + [];
    }
    KeepCons(y, [z]);
    assert KeepLines([y, z]) == [y] by {
      assert [y, z] == [y] + [z];
    }
    KeepCons(x, [y, z]);
    assert [x, y, z] == [x] + [y, z];
  }

  lemma CommentSampleKept()
    ensures KeepLines(["a", " //"]) == ["a", "//"]
  {
    IndentedCommentStripped();
    assert IsStripped("a") && !StartsWith("a", CommentPrefix);
    KeptAsIs("a");
    KeepBoth("a", " //");
  }

  lemma CommentSampleAssembled()
    ensures WithDeclaration(WithPragma(["a", "//"])) == [DefaultVersion, "a", "//"]
  {
    var lines := [DefaultVersion, "a", "//"];
    assert WithPragma(["a", "//"]) == lines;
    AbsentCharacter(DefaultVersion, ColorName, 4);
    AbsentCharacter("a", ColorName, 4);
    AbsentCharacter("//", ColorName, 4);
    assert !AnyContains(lines, ColorName);
  }

  /** The sanitiser's result from the results of its stages. */
  lemma CleanFromStages(code: string, split: seq<string>, kept: seq<string>, lines: seq<string>)
    requires SplitLines(Strip(Rewrite(code))) == split && KeepLines(split) == kept
    requires |kept| > 0 && WithDeclaration(WithPragma(kept)) == lines
    ensures CleanShader(code) == Some(Join(lines))
  {
  }

  lemma CommentSampleJoined()
    ensures Join([DefaultVersion, "a", "//"]) == DefaultVersion + "\na\n//"
    ensures Join([DefaultVersion, "a"]) == DefaultVersion + "\na"
  {
    assert Join(["//"]) == "//";
    assert Join(["a", "//"]) == "a\n//" by {
      assert ["a", "//"][1..] == ["//"];
    }
    assert [DefaultVersion, "a", "//"][1..] == ["a", "//"];
    assert [DefaultVersion, "a"][1..] == ["a"];
  }

  lemma CommentSampleCleaned()
    ensures CleanShader("a\n //") == Some(Join([DefaultVersion, "a", "//"]))
  {
    CommentSample();
    CommentSampleKept();
    CommentSampleAssembled();
    CleanFromStages("a\n //", ["a", " //"], ["a", "//"], [DefaultVersion, "a", "//"]);
  }

  /** The first pass over a text whose second line is an indented comment keeps that comment, stripped. */
  lemma IndentedCommentKept()
    ensures CleanShader("a\n //") == Some(DefaultVersion + "\na\n//")
  {
    CommentSampleCleaned();
    CommentSampleJoined();
  }

  lemma StagedSampleFixed()
    ensures Strip(Rewrite(DefaultVersion + "\na\n//")) == DefaultVersion + "\na\n//"
  {
    var out := DefaultVersion + "\na\n//";
    assert '`' !in out && 'C' !in out;
    RewriteUntouched(out);
    assert out[0] == '#' && out[|out| - 1] == '/';
    assert IsStripped(out);
    StripFixes(out);
  }

  lemma StagedSample()
    ensures SplitLines(Strip(Rewrite(DefaultVersion + "\na\n//"))) == [DefaultVersion, "a", "//"]
  {
    CommentSampleJoined();
    StagedSampleFixed();
    SplitJoin([DefaultVersion, "a", "//"]);
  }

  lemma StagedSampleKept()
    ensures KeepLines([DefaultVersion, "a", "//"]) == [DefaultVersion, "a"]
  {
    assert IsStripped(DefaultVersion) && !StartsWith(DefaultVersion, CommentPrefix);
    KeptAsIs(DefaultVersion);
    assert IsStripped("a") && !StartsWith("a", CommentPrefix);
    KeptAsIs("a");
    assert StartsWith("//", CommentPrefix);
    KeepDropLast(DefaultVersion, "a", "//");
  }

  lemma StagedSampleAssembled()
    ensures WithDeclaration(WithPragma([DefaultVersion, "a"])) == [DefaultVersion, "a"]
  {
    var kept := [DefaultVersion, "a"];
    assert WithPragma(kept) == kept;
    AbsentCharacter(DefaultVersion, ColorName, 4);
    AbsentCharacter("a", ColorName, 4);
    assert !AnyContains(kept, ColorName);
  }

  lemma StagedSampleCleaned()
    ensures CleanShader(DefaultVersion + "\na\n//") == Some(Join([DefaultVersion, "a"]))
  {
    StagedSample();
    StagedSampleKept();
    StagedSampleAssembled();
    CleanFromStages(DefaultVersion + "\na\n//", [DefaultVersion, "a", "//"], [DefaultVersion, "a"], [DefaultVersion, "a"]);
  }

  /** The second pass drops the comment the first pass kept. */
  lemma StrippedCommentDropped()
    ensures CleanShader(DefaultVersion + "\na\n//") == Some(DefaultVersion + "\na")
  {
    StagedSampleCleaned();
    CommentSampleJoined();
  }

  /**
   * The precondition of `Idempotent` is needed: an indented comment line
   * passes the first filter and comes out stripped, and the second pass
   * drops it, so sanitising twice differs from sanitising once.
   */
  lemma IndentedCommentNotIdempotent()
    ensures CleanShader("a\n //").Some?
    ensures CleanShader(CleanShader("a\n //").value) != CleanShader("a\n //")
  {
    IndentedCommentKept();
    StrippedCommentDropped();
    assert |DefaultVersion + "\na"| != |DefaultVersion + "\na\n//"|;
  }

}

=== FILE: shader_retry.dfy ===
/**
 * The generate-and-compile loop of `generate_video`: up to `max_retries`
 * attempts, each asking the language model for a shader, sanitising it,
 * staging the stripped text in the shader file, and test-compiling the
 * sanitised text. The first shader that compiles ends the loop; when none
 * does, the run fails with a runtime error. A sanitiser failure is not
 * caught by the loop and ends the run at once.
 *
 * The language model and the compiler are parameters: `candidate(k)` is
 * the reply to attempt `k` (counting from 0) and `compiles(s)` says whether
 * the driver accepts fragment shader `s`. The sanitiser is a parameter too,
 * `sanitize`; the whole run plugs in `Sanitizer.CleanShader`.
 */
module ShaderRetry {

  import opened Results

  /** How the loop ended. */
  datatype Outcome =
    | Compiled(source: string)  // the loop broke out with this shader
    | Exhausted                 // the `else` branch: every attempt failed to compile
    | SanitizerCrashed          // the sanitiser found no line to keep

  /**
   * The loop's end state: how it ended, how many replies it asked for, and
   * the sanitised shader last written to the shader file (the file holds
   * that text stripped; `None` when no attempt wrote it).
   */
  datatype Run = Run(outcome: Outcome, calls: nat, staged: Option<string>)

  /** Attempt `k` got past the sanitiser and its shader did not compile. */
  predicate AttemptFails(candidate: nat -> string, sanitize: string -> Option<string>, compiles: string -> bool, k: nat) {
    sanitize(candidate(k)).Some? && !compiles(sanitize(candidate(k)).value)
  }

  /**
   * The loop from attempt `attempt` on, with `staged` the sanitised shader
   * written to the shader file so far.
   */
  function Retry(candidate: nat -> string, sanitize: string -> Option<string>, compiles: string -> bool, maxRetries: nat, attempt: nat, staged: Option<string>): (r: Run)
    requires attempt <= maxRetries
    decreases maxRetries - attempt
    ensures attempt <= r.calls <= maxRetries
    ensures forall k :: attempt <= k < r.calls - 1 ==> AttemptFails(candidate, sanitize, compiles, k)
    ensures r.outcome.Exhausted? <==>
      r.calls == maxRetries && forall k :: attempt <= k < maxRetries ==> AttemptFails(candidate, sanitize, compiles, k)
    ensures r.outcome.Compiled? ==>
      && r.calls > attempt
      && sanitize(candidate(r.calls - 1)) == Some(r.outcome.source)
      && compiles(r.outcome.source)
      && r.staged == Some(r.outcome.source)
    ensures r.outcome.SanitizerCrashed? ==> r.calls > attempt && sanitize(candidate(r.calls - 1)).None?
    ensures r.outcome.Exhausted? && maxRetries > attempt ==>
      sanitize(candidate(maxRetries - 1)).Some? && r.staged == sanitize(candidate(maxRetries - 1))
    ensures r.calls == attempt ==> r.staged == staged
  {
    if attempt == maxRetries then Run(Exhausted, attempt, staged)
    else
      match sanitize(candidate(attempt))
      case None =>
        assert !AttemptFails(candidate, sanitize, compiles, attempt);
        Run(SanitizerCrashed, attempt + 1, staged)
      case Some(safe) =>
        var written := Some(safe);
        if compiles(safe) then
          assert !AttemptFails(candidate, sanitize, compiles, attempt);
          Run(Compiled(safe), attempt + 1, written)
        else Retry(candidate, sanitize, compiles, maxRetries, attempt + 1, written)
  }

  /**
   * The loop as written: a counted loop that breaks on the first shader
   * that compiles, propagates a sanitiser failure, and falls into the
   * `else` branch when every attempt failed.
   */
  method GenerateShader(candidate: nat -> string, sanitize: string -> Option<string>, compiles: string -> bool, maxRetries: nat, prior: Option<string>)
    returns (outcome: Outcome, calls: nat, staged: Option<string>)
    ensures calls <= maxRetries
    ensures outcome.Exhausted? <==>
      calls == maxRetries && forall k :: 0 <= k < maxRetries ==> AttemptFails(candidate, sanitize, compiles, k)
    ensures outcome.Compiled? ==>
      && calls > 0
      && (forall k :: 0 <= k < calls - 1 ==> AttemptFails(candidate, sanitize, compiles, k))
      && sanitize(candidate(calls - 1)) == Some(outcome.source)
      && compiles(outcome.source)
      && staged == Some(outcome.source)
    ensures outcome.SanitizerCrashed? ==>
      && calls > 0
      && (forall k :: 0 <= k < calls - 1 ==> AttemptFails(candidate, sanitize, compiles, k))
      && sanitize(candidate(calls - 1)).None?
    ensures Run(outcome, calls, staged) == Retry(candidate, sanitize, compiles, maxRetries, 0, prior)
  {
    staged := prior;
    outcome := Exhausted;
    var attempt: nat := 0;
    var done := false;
    while !done && attempt < maxRetries
      invariant attempt <= maxRetries
      invariant !done ==> outcome.Exhausted? && Retry(candidate, sanitize, compiles, maxRetries, attempt, staged) == Retry(candidate, sanitize, compiles, maxRetries, 0, prior)
      invariant done ==> Run(outcome, attempt, staged) == Retry(candidate, sanitize, compiles, maxRetries, 0, prior)
      decreases maxRetries - attempt, if done then 0 else 1
    {
      var safe := sanitize(candidate(attempt));
      if safe.None? {
        outcome, done := SanitizerCrashed, true;
      } else {
        staged := safe;
        if compiles(safe.value) {
          outcome, done := Compiled(safe.value), true;
        }
      }
      attempt := attempt + 1;
    }
    calls := attempt;
  }

  /**
   * The loop stops at the first attempt that does not fail: it asks for
   * exactly that many replies, and ends compiled or crashed according to
   * what the sanitiser made of that reply.
   */
  lemma StopsAtFirstNonFailure(candidate: nat -> string, sanitize: string -> Option<string>, compiles: string -> bool, maxRetries: nat, attempt: nat, staged: Option<string>, k: nat)
    requires attempt <= k < maxRetries
    requires forall j :: attempt <= j < k ==> AttemptFails(candidate, sanitize, compiles, j)
    requires !AttemptFails(candidate, sanitize, compiles, k)
    ensures Retry(candidate, sanitize, compiles, maxRetries, attempt, staged).calls == k + 1
    ensures Retry(candidate, sanitize, compiles, maxRetries, attempt, staged).outcome ==
      if sanitize(candidate(k)).None? then SanitizerCrashed else Compiled(sanitize(candidate(k)).value)
  {
    var r := Retry(candidate, sanitize, compiles, maxRetries, attempt, staged);
    assert !r.outcome.Exhausted?;
    assert r.calls > attempt && !AttemptFails(candidate, sanitize, compiles, r.calls - 1);
    assert !(r.calls - 1 < k);
    assert !(k < r.calls - 1);
  }

  /** With no attempts allowed, the loop goes straight to its `else` branch and writes nothing. */
  lemma NoAttempts(candidate: nat -> string, sanitize: string -> Option<string>, compiles: string -> bool, prior: Option<string>)
    ensures Retry(candidate, sanitize, compiles, 0, 0, prior) == Run(Exhausted, 0, prior)
  {
  }

}

=== FILE: strings.dfy ===
/**
 * The Python string operations the shader sanitiser is built from, over
 * `string` (a `seq<char>`): `startswith`, the `in` test, `replace`,
 * `strip`, `splitlines` and `"\n".join`.
 *
 * Only the line feed separates lines and only ASCII whitespace is stripped;
 * the README lists the Unicode cases left out.
 */
module Strings {

  /**
   * The ASCII characters `str.strip()` removes, those for which `isspace()`
   * holds: space, \t, \n, \v, \f, \r, and the separators \x1c to \x1f.
   */
  predicate IsSpace(c: char) {
    c == ' ' || '\t' <= c <= '\r' || '\U{1C}' <= c <= '\U{1F}'
  }

  /** `s.startswith(p)` */
  predicate StartsWith(s: string, p: string) {
    |p| <= |s| && s[..|p|] == p
  }

  /** The window of `s` starting at `i` spells `p`. */
  predicate OccursAt(s: string, p: string, i: int) {
    0 <= i <= |s| - |p| && s[i..i + |p|] == p
  }

  /** `p in s` */
  predicate Contains(s: string, p: string) {
    exists i | 0 <= i <= |s| - |p| :: OccursAt(s, p, i)
  }

  /** `r` is the window of `s` that starts at `a`. */
  predicate WindowAt(s: string, r: string, a: int) {
    0 <= a <= |s| - |r| && r == s[a..a + |r|]
  }

  /** `s.strip() == ""`: every character is whitespace. */
  predicate Blank(s: string) {
    forall i :: 0 <= i < |s| ==> IsSpace(s[i])
  }

  /** Neither end of `s` is whitespace, so `strip` leaves it alone. */
  predicate IsStripped(s: string) {
    |s| == 0 || (!IsSpace(s[0]) && !IsSpace(s[|s| - 1]))
  }

  /** `a` and `b` disagree at some position both of them have. */
  predicate Clash(a: string, b: string) {
    exists j :: 0 <= j < |a| && j < |b| && a[j] != b[j]
  }

  /**
   * No occurrence of `q` can start inside `rep`, and none can start before
   * `rep` and run into it: a copy of `rep` spliced into a text never takes
   * part in an occurrence of `q`.
   */
  predicate NoOverlap(rep: string, q: string) {
    && (forall i :: 0 <= i < |rep| ==> Clash(rep[i..], q))
    && (forall k :: 1 <= k < |q| ==> Clash(q[k..], rep))
  }

  /**
   * `s.replace(pat, rep)`: the leftmost occurrence is replaced first and the
   * scan resumes after it, so occurrences never overlap.
   */
  function Replace(s: string, pat: string, rep: string): (r: string)
    requires |pat| > 0
    ensures rep == pat ==> r == s
    ensures |rep| <= |pat| ==> |r| <= |s|
    decreases |s|
  {
    if |s| == 0 then ""
    else if StartsWith(s, pat) then rep + Replace(s[|pat|..], pat, rep)
    else [s[0]] + Replace(s[1..], pat, rep)
  }

  /**
   * `s.strip()`: whitespace comes off the front, then off the back, until
   * neither end is whitespace.
   */
  function Strip(s: string): (r: string)
    ensures IsStripped(r)
    ensures |r| <= |s|
    ensures |r| == 0 <==> Blank(s)
    decreases |s|
  {
    if |s| > 0 && IsSpace(s[0]) then
      assert Blank(s[1..]) ==> Blank(s) by {
        if Blank(s[1..]) {
          forall i | 1 <= i < |s| ensures IsSpace(s[i]) {
            assert s[i] == s[1..][i - 1];
          }
        }
      }
      Strip(s[1..])
    else if |s| > 0 && IsSpace(s[|s| - 1]) then
      assert Blank(s[..|s| - 1]) ==> Blank(s) by {
        if Blank(s[..|s| - 1]) {
          forall i | 0 <= i < |s| - 1 ensures IsSpace(s[i]) {
            assert s[i] == s[..|s| - 1][i];
          }
        }
      }
      Strip(s[..|s| - 1])
    else s
  }

  /** How many whitespace characters open `s`. */
  function LeadingSpace(s: string): (n: nat)
    ensures n <= |s|
  {
    if |s| > 0 && IsSpace(s[0]) then 1 + LeadingSpace(s[1..]) else 0
  }

  /**
   * `strip` removes whitespace and nothing else, and only at the ends: the
   * stripped text is the window of the text that starts after its leading
   * whitespace, and what lies before and after that window is all whitespace.
   */
  lemma {:induction false} StripWindow(s: string)
    ensures var a := LeadingSpace(s);
      WindowAt(s, Strip(s), a) && Blank(s[..a]) && Blank(s[a + |Strip(s)|..])
    decreases |s|
  {
    var r := Strip(s);
    if |s| > 0 && IsSpace(s[0]) {
      assert r == Strip(s[1..]) && LeadingSpace(s) == 1 + LeadingSpace(s[1..]);
      StripWindow(s[1..]);
      WindowAfterSpace(s, r, LeadingSpace(s[1..]));
    } else if |s| > 0 && IsSpace(s[|s| - 1]) {
      var t := s[..|s| - 1];
      assert |t| > 0 && t[0] == s[0];
      assert r == Strip(t) && LeadingSpace(s) == 0 && LeadingSpace(t) == 0;
      StripWindow(t);
      WindowBeforeSpace(s, r, 0);
    } else {
      assert WindowAt(s, r, 0) && Blank(s[..0]) && Blank(s[|r|..]);
    }
  }

  /** A blank-bordered window of `s[1..]` is one of `s` when `s[0]` is whitespace. */
  lemma WindowAfterSpace(s: string, r: string, a: int)
    requires |s| > 0 && IsSpace(s[0])
    requires WindowAt(s[1..], r, a) && Blank(s[1..][..a]) && Blank(s[1..][a + |r|..])
    ensures WindowAt(s, r, a + 1) && Blank(s[..a + 1]) && Blank(s[a + 1 + |r|..])
  {
    var t := s[1..];
    assert t[a..a + |r|] == s[a + 1..a + 1 + |r|];
    forall i | 1 <= i < a + 1 ensures IsSpace(s[i]) {
      assert s[i] == t[..a][i - 1];
    }
    assert s[a + 1 + |r|..] == t[a + |r|..];
  }

  /** A blank-bordered window of all but the last character is one of `s` when that character is whitespace. */
  lemma WindowBeforeSpace(s: string, r: string, a: int)
    requires |s| > 0 && IsSpace(s[|s| - 1])
    requires WindowAt(s[..|s| - 1], r, a) && Blank(s[..|s| - 1][..a]) && Blank(s[..|s| - 1][a + |r|..])
    ensures WindowAt(s, r, a) && Blank(s[..a]) && Blank(s[a + |r|..])
  {
    var t := s[..|s| - 1];
    assert t[a..a + |r|] == s[a..a + |r|];
    assert s[..a] == t[..a];
    forall i | a + |r| <= i < |s| - 1 ensures IsSpace(s[i]) {
      assert s[i] == t[a + |r|..][i - a - |r|];
    }
  }

  /** `LineEnd` finds the first line feed. */
  lemma {:induction false} LineEndAt(s: string, k: int)
    requires 0 <= k <= |s|
    requires forall i :: 0 <= i < k ==> s[i] != '\n'
    requires k < |s| ==> s[k] == '\n'
    ensures LineEnd(s) == k
  {
    if k > 0 {
      LineEndAt(s[1..], k - 1);
    }
  }

  /** Index of the first line feed of `s`, or `|s|` when it has none. */
  function LineEnd(s: string): (k: nat)
    ensures k <= |s|
    ensures forall i :: 0 <= i < k ==> s[i] != '\n'
    ensures k < |s| ==> s[k] == '\n'
  {
    if |s| == 0 || s[0] == '\n' then 0 else 1 + LineEnd(s[1..])
  }

  /**
   * `s.splitlines()` for line feeds: an empty text has no lines and a final
   * line feed does not open an extra empty line.
   */
  function SplitLines(s: string): (lines: seq<string>)
    ensures forall i :: 0 <= i < |lines| ==> '\n' !in lines[i]
    ensures |lines| == 0 <==> |s| == 0
    decreases |s|
  {
    if |s| == 0 then []
    else
      var k := LineEnd(s);
      if k == |s| then [s] else [s[..k]] + SplitLines(s[k + 1..])
  }

  /** `"\n".join(lines)` */
  function Join(lines: seq<string>): (r: string)
    ensures |lines| > 0 ==> StartsWith(r, lines[0])
  {
    if |lines| == 0 then ""
    else if |lines| == 1 then lines[0]
    else lines[0] + "\n" + Join(lines[1..])
  }

  // ---------------------------------------------------------------------
  // Occurrences
  // ---------------------------------------------------------------------

  /** An index at which `q` occurs in `s`. */
  lemma Occurrence(s: string, q: string) returns (i: int)
    requires Contains(s, q)
    ensures OccursAt(s, q, i) && 0 <= i <= |s| - |q| && s[i..i + |q|] == q
  {
    i :| OccursAt(s, q, i);
    assert OccursAt(s, q, i);
  }

  /** The characters of an occurrence are those of the pattern. */
  lemma OccursAtChar(s: string, q: string, i: int, m: int)
    ensures OccursAt(s, q, i) && 0 <= m < |q| ==> s[i + m] == q[m]
  {
    if OccursAt(s, q, i) && 0 <= m < |q| {
      assert s[i..i + |q|][m] == s[i + m];
    }
  }

  /** A prefix is an occurrence at index 0. */
  lemma StartsWithContains(s: string, q: string)
    ensures StartsWith(s, q) ==> Contains(s, q)
  {
    if StartsWith(s, q) {
      assert OccursAt(s, q, 0);
    }
  }

  /** Two prefixes of one text agree wherever both are defined. */
  lemma PrefixesAgree(s: string, a: string, b: string)
    ensures StartsWith(s, a) && StartsWith(s, b) ==> !Clash(a, b)
  {
    if StartsWith(s, a) && StartsWith(s, b) {
      forall j | 0 <= j < |a| && j < |b| ensures a[j] == b[j] {
        assert s[..|a|][j] == s[j] == s[..|b|][j];
      }
    }
  }

  /** An occurrence inside a window of `s` is an occurrence in `s`. */
  lemma ContainsInWindow(s: string, a: int, b: int, q: string)
    requires 0 <= a <= b <= |s|
    ensures Contains(s[a..b], q) ==> Contains(s, q)
  {
    if Contains(s[a..b], q) {
      var w := s[a..b];
      var i := Occurrence(w, q);
      forall k | 0 <= k < |q| ensures s[a + i + k] == q[k] {
        assert w[i..i + |q|][k] == w[i + k] == s[a + i + k];
      }
      assert s[a + i..a + i + |q|] == q;
      assert OccursAt(s, q, a + i);
    }
  }

  /** An occurrence in a non-empty text starts at its head or lies in its tail. */
  lemma ContainsCons(s: string, q: string)
    requires |s| > 0
    ensures Contains(s, q) ==> StartsWith(s, q) || Contains(s[1..], q)
  {
    if Contains(s, q) {
      var i := Occurrence(s, q);
      if i > 0 {
        forall k | 0 <= k < |q| ensures s[1..][i - 1 + k] == q[k] {
          OccursAtChar(s, q, i, k);
        }
        assert s[1..][i - 1..i - 1 + |q|] == q;
        assert OccursAt(s[1..], q, i - 1);
      }
    }
  }

  /** A text in which some character of `q` never appears does not contain `q`. */
  lemma AbsentCharacter(s: string, q: string, k: int)
    requires 0 <= k < |q| && q[k] !in s
    ensures !Contains(s, q)
  {
    forall i | 0 <= i <= |s| - |q| ensures !OccursAt(s, q, i) {
      assert s[i..i + |q|][k] == s[i + k];
      assert s[i + k] in s;
    }
  }

  /** An occurrence of a pattern without line feeds cannot cross one. */
  lemma ContainsAcrossNewline(a: string, b: string, q: string)
    requires '\n' !in q
    ensures Contains(a + "\n" + b, q) ==> Contains(a, q) || Contains(b, q)
  {
    var s := a + "\n" + b;
    if Contains(s, q) {
      var i := Occurrence(s, q);
      forall m | i <= m < i + |q| ensures s[m] != '\n' {
        OccursAtChar(s, q, i, m - i);
        assert q[m - i] in q;
      }
      assert s[|a|] == '\n';
      assert i + |q| <= |a| || i > |a|;
      if i + |q| <= |a| {
        forall k | 0 <= k < |q| ensures a[i + k] == q[k] {
          OccursAtChar(s, q, i, k);
        }
        assert a[i..i + |q|] == q;
        assert OccursAt(a, q, i);
      } else {
        forall k | 0 <= k < |q| ensures b[i - |a| - 1 + k] == q[k] {
          OccursAtChar(s, q, i, k);
        }
        assert b[i - |a| - 1..i - |a| - 1 + |q|] == q;
        assert OccursAt(b, q, i - |a| - 1);
      }
    }
  }

  /** Every line of `s` is a window of `s`, so an occurrence in a line is one in `s`. */
  lemma ContainsInLine(s: string, j: int, q: string)
    requires 0 <= j < |SplitLines(s)|
    ensures Contains(SplitLines(s)[j], q) ==> Contains(s, q)
  {
    var a, b := LineWindow(s, j);
    ContainsInWindow(s, a, b, q);
  }

  /** Every line of a text is a contiguous piece of it. */
  lemma {:induction false} LineWindow(s: string, j: int) returns (a: int, b: int)
    requires 0 <= j < |SplitLines(s)|
    ensures 0 <= a <= b <= |s| && SplitLines(s)[j] == s[a..b]
    decreases |s|
  {
    var k := LineEnd(s);
    if j == 0 {
      FirstLine(s);
      a, b := 0, k;
    } else {
      var tail := s[k + 1..];
      LaterLines(s, j);
      var c, d := LineWindow(tail, j - 1);
      ShiftWindow(s, k + 1, c, d);
      a, b := k + 1 + c, k + 1 + d;
    }
  }

  /** The first line of a text runs up to its first line feed. */
  lemma FirstLine(s: string)
    requires |SplitLines(s)| > 0
    ensures SplitLines(s)[0] == s[0..LineEnd(s)]
  {
    if LineEnd(s) < |s| {
      SplitFirst(s);
    }
  }

  /** A later line of a text is a line of the text after its first line feed. */
  lemma LaterLines(s: string, j: int)
    requires 0 < j < |SplitLines(s)|
    ensures LineEnd(s) < |s|
    ensures 0 <= j - 1 < |SplitLines(s[LineEnd(s) + 1..])|
    ensures SplitLines(s)[j] == SplitLines(s[LineEnd(s) + 1..])[j - 1]
  {
    if LineEnd(s) < |s| {
      SplitFirst(s);
    }
  }

  /** A window of a suffix is a window of the whole text. */
  lemma ShiftWindow(s: string, m: int, c: int, d: int)
    requires 0 <= m <= |s| && 0 <= c <= d <= |s| - m
    ensures s[m..][c..d] == s[m + c..m + d]
  {
  }

  /** Joining lines that avoid a pattern without line feeds gives a text that avoids it. */
  lemma {:induction false} JoinAvoids(lines: seq<string>, q: string)
    requires |q| > 0 && '\n' !in q
    requires forall j :: 0 <= j < |lines| ==> !Contains(lines[j], q)
    ensures !Contains(Join(lines), q)
  {
    if |lines| > 1 {
      JoinAvoids(lines[1..], q);
      ContainsAcrossNewline(lines[0], Join(lines[1..]), q);
    }
  }

  // ---------------------------------------------------------------------
  // Replace
  // ---------------------------------------------------------------------

  /** Replacing a pattern that does not occur leaves the text unchanged. */
  lemma {:induction false} ReplaceAbsent(s: string, pat: string, rep: string)
    requires |pat| > 0
    requires !Contains(s, pat)
    ensures Replace(s, pat, rep) == s
    decreases |s|
  {
    if |s| > 0 {
      StartsWithContains(s, pat);
      assert s[1..|s|] == s[1..];
      ContainsInWindow(s, 1, |s|, pat);
      ReplaceAbsent(s[1..], pat, rep);
    }
  }

  /**
   * The leftmost occurrence of the pattern becomes the replacement: the
   * text before it is copied, and the scan resumes right after it.
   */
  lemma {:induction false} ReplaceAt(a: string, pat: string, b: string, rep: string)
    requires |pat| > 0
    requires forall i :: 0 <= i < |a| ==> !OccursAt(a + pat + b, pat, i)
    ensures Replace(a + pat + b, pat, rep) == a + rep + Replace(b, pat, rep)
    decreases |a|
  {
    var s := a + pat + b;
    var r := Replace(b, pat, rep);
    if |a| == 0 {
      assert s == pat + b;
      assert s[..|pat|] == pat && s[|pat|..] == b;
      assert a + rep + r == rep + r;
    } else {
      SkipFirst(a, pat, b);
      ReplaceAt(a[1..], pat, b, rep);
      assert a + rep + r == [a[0]] + (a[1..] + rep + r) by {
        assert a == [a[0]] + a[1..];
      }
    }
  }

  /** Before its leftmost occurrence the pattern does not start the text, nor its tail. */
  lemma SkipFirst(a: string, pat: string, b: string)
    requires |a| > 0
    requires forall i :: 0 <= i < |a| ==> !OccursAt(a + pat + b, pat, i)
    ensures !StartsWith(a + pat + b, pat)
    ensures (a + pat + b)[1..] == a[1..] + pat + b
    ensures forall i :: 0 <= i < |a[1..]| ==> !OccursAt(a[1..] + pat + b, pat, i)
  {
    var s := a + pat + b;
    var t := a[1..] + pat + b;
    assert !OccursAt(s, pat, 0);
    assert s[..|pat|] == s[0..|pat|];
    assert s[1..] == t;
    forall i | 0 <= i < |a[1..]| ensures !OccursAt(t, pat, i) {
      assert !OccursAt(s, pat, i + 1);
      assert t[i..i + |pat|] == s[i + 1..i + 1 + |pat|];
    }
  }

  /** A text made of three parts gives each part back by slicing. */
  lemma ThreeParts(a: string, b: string, c: string)
    ensures var s := a + b + c;
      && |s| == |a| + |b| + |c|
      && s[..|a|] == a
      && s[|a|..|s| - |c|] == b
      && s[|s| - |c|..] == c
  {
  }

  /** Concatenation regrouped. */
  lemma Regroup(a: string, b: string, c: string)
    ensures a + b + c == a + (b + c)
  {
  }

  /** Where the pattern starts the input, the replacement starts the output. */
  lemma ReplaceHead(s: string, pat: string, rep: string)
    requires |pat| > 0
    ensures StartsWith(s, pat) ==> StartsWith(Replace(s, pat, rep), rep)
  {
    if StartsWith(s, pat) {
      var r := Replace(s, pat, rep);
      assert r == rep + Replace(s[|pat|..], pat, rep);
      assert r[..|rep|] == rep;
    }
  }

  /** An occurrence starting inside a leading `rep` agrees with that part of `rep`. */
  lemma InsideReplacement(rep: string, rest: string, q: string, i: int)
    ensures OccursAt(rep + rest, q, i) && 0 <= i < |rep| ==> !Clash(rep[i..], q)
  {
    var r := rep + rest;
    if OccursAt(r, q, i) && 0 <= i < |rep| {
      assert r[i..] == rep[i..] + rest;
      assert StartsWith(r[i..], rep[i..]);
      assert r[i..][..|q|] == q;
      PrefixesAgree(r[i..], rep[i..], q);
    }
  }

  /**
   * If the output of a replacement starts with the tail `q[k..]`, and copies
   * of `rep` cannot run into `q`, then the input starts with that tail.
   */
  lemma {:induction false} ReplacePrefix(u: string, pat: string, rep: string, q: string, k: int)
    requires |pat| > 0 && NoOverlap(rep, q)
    requires 1 <= k < |q|
    requires StartsWith(Replace(u, pat, rep), q[k..])
    ensures StartsWith(u, q[k..])
    decreases |u|
  {
    var r := Replace(u, pat, rep);
    var t := q[k..];
    assert |u| > 0;
    ReplaceHead(u, pat, rep);
    PrefixesAgree(r, t, rep);
    assert Clash(t, rep);
    assert !StartsWith(u, pat);
    assert r == [u[0]] + Replace(u[1..], pat, rep);
    assert u[0] == r[..|t|][0] == t[0];
    if k + 1 < |q| {
      assert r[1..][..|q[k + 1..]|] == r[..|t|][1..];
      ReplacePrefix(u[1..], pat, rep, q, k + 1);
      assert u[..|t|] == [u[0]] + u[1..][..|q[k + 1..]|];
    }
  }

  /**
   * A replacement whose text cannot take part in an occurrence of `q` never
   * creates one: every occurrence in the output was already in the input,
   * and the pattern itself survives nowhere.
   */
  lemma {:induction false} ReplaceCreatesNone(s: string, pat: string, rep: string, q: string)
    requires |pat| > 0 && |q| > 0 && NoOverlap(rep, q)
    ensures Contains(Replace(s, pat, rep), q) ==> Contains(s, q) && q != pat
    decreases |s|
  {
    var r := Replace(s, pat, rep);
    if Contains(r, q) {
      var i := Occurrence(r, q);
      assert |s| > 0;
      if StartsWith(s, pat) {
        var rest := Replace(s[|pat|..], pat, rep);
        assert r == rep + rest;
        InsideReplacement(rep, rest, q, i);
        OccurrenceAfter(rep, rest, q, i);
        ReplaceCreatesNone(s[|pat|..], pat, rep, q);
        assert s[|pat|..|s|] == s[|pat|..];
        ContainsInWindow(s, |pat|, |s|, q);
      } else if i > 0 {
        var rest := Replace(s[1..], pat, rep);
        assert r == [s[0]] + rest;
        OccurrenceAfter([s[0]], rest, q, i);
        ReplaceCreatesNone(s[1..], pat, rep, q);
        assert s[1..|s|] == s[1..];
        ContainsInWindow(s, 1, |s|, q);
      } else {
        OccurrenceAtHead(s, pat, rep, q);
      }
    }
  }

  /** An occurrence past the head of `head + rest` is an occurrence in `rest`. */
  lemma OccurrenceAfter(head: string, rest: string, q: string, i: int)
    requires OccursAt(head + rest, q, i) && i >= |head|
    ensures Contains(rest, q)
  {
    var r := head + rest;
    forall m | 0 <= m < |q| ensures rest[i - |head| + m] == q[m] {
      OccursAtChar(r, q, i, m);
    }
    assert rest[i - |head|..i - |head| + |q|] == q;
    assert OccursAt(rest, q, i - |head|);
  }

  /** An occurrence at the very start of a replacement that does not start at the pattern was there before. */
  lemma OccurrenceAtHead(s: string, pat: string, rep: string, q: string)
    requires |pat| > 0 && |q| > 0 && NoOverlap(rep, q)
    requires |s| > 0 && !StartsWith(s, pat)
    requires OccursAt(Replace(s, pat, rep), q, 0)
    ensures Contains(s, q) && q != pat
  {
    var r := Replace(s, pat, rep);
    var rest := Replace(s[1..], pat, rep);
    assert r == [s[0]] + rest;
    OccursAtChar(r, q, 0, 0);
    if |q| > 1 {
      assert rest[..|q[1..]|] == r[..|q|][1..];
      ReplacePrefix(s[1..], pat, rep, q, 1);
      assert s[..|q|] == [s[0]] + s[1..][..|q[1..]|];
    }
    assert s[0..|q|] == q;
    assert OccursAt(s, q, 0);
  }


  // ---------------------------------------------------------------------
  // Strip, lines and join
  // ---------------------------------------------------------------------

  /** `strip` adds no characters: a text without `c` strips to one without `c`. */
  lemma StripKeepsOut(s: string, c: char)
    requires c !in s
    ensures c !in Strip(s)
  {
    var r := Strip(s);
    StripWindow(s);
    var a := LeadingSpace(s);
    forall k | 0 <= k < |r| ensures r[k] != c {
      assert r[k] == s[a + k];
      assert s[a + k] in s;
    }
  }

  /** An occurrence in the stripped text is an occurrence in the text. */
  lemma StripAvoids(s: string, q: string)
    requires !Contains(s, q)
    ensures !Contains(Strip(s), q)
  {
    var r := Strip(s);
    StripWindow(s);
    var a := LeadingSpace(s);
    ContainsInWindow(s, a, a + |r|, q);
  }

  /** `strip` changes exactly the texts with whitespace at an end. */
  lemma StripFixes(s: string)
    ensures Strip(s) == s <==> IsStripped(s)
  {
  }

  /**
   * Splitting the joined text gives the lines back, provided no line is
   * empty and none holds a line feed.
   */
  lemma {:induction false} SplitJoin(lines: seq<string>)
    requires forall i :: 0 <= i < |lines| ==> |lines[i]| > 0 && '\n' !in lines[i]
    ensures SplitLines(Join(lines)) == lines
  {
    if |lines| == 1 {
      var s := lines[0];
      forall i | 0 <= i < |s| ensures s[i] != '\n' {
        assert s[i] in s;
      }
      LineEndAt(s, |s|);
    } else if |lines| > 1 {
      var rest := lines[1..];
      assert lines == [lines[0]] + rest;
      JoinCons(lines[0], rest);
      SplitCons(lines[0], Join(rest));
      SplitJoin(rest);
    }
  }

  /** The first line of a text with a line feed, then the lines after it. */
  lemma SplitFirst(s: string)
    requires |s| > 0 && LineEnd(s) < |s|
    ensures SplitLines(s) == [s[..LineEnd(s)]] + SplitLines(s[LineEnd(s) + 1..])
  {
  }

  /** A line without line feeds, a line feed and a text split into that line and the text's lines. */
  lemma SplitCons(a: string, t: string)
    requires '\n' !in a
    ensures SplitLines(a + "\n" + t) == [a] + SplitLines(t)
  {
    var s := a + "\n" + t;
    forall i | 0 <= i < |a| ensures s[i] != '\n' {
      assert s[i] == a[i];
    }
    LineEndAt(s, |a|);
    assert s[..|a|] == a;
    assert s[|a| + 1..] == t;
  }

  /**
   * Joining the lines gives the text back, unless it ends with a line feed
   * (which `splitlines()` does not turn into a last empty line).
   */
  lemma {:induction false} JoinSplit(s: string)
    requires |s| == 0 || s[|s| - 1] != '\n'
    ensures Join(SplitLines(s)) == s
    decreases |s|
  {
    if |s| > 0 && LineEnd(s) < |s| {
      var k := LineEnd(s);
      var tail := s[k + 1..];
      assert |tail| > 0 && tail[|tail| - 1] == s[|s| - 1];
      SplitFirst(s);
      JoinSplit(tail);
      JoinCons(s[..k], SplitLines(tail));
      BreakAt(s, k);
    }
  }

  /** Joining one more line in front puts a line feed between. */
  lemma JoinCons(a: string, rest: seq<string>)
    requires |rest| > 0
    ensures Join([a] + rest) == a + "\n" + Join(rest)
  {
    assert ([a] + rest)[1..] == rest;
  }

  /** A text is its part before a line feed, the line feed and its part after. */
  lemma BreakAt(s: string, k: int)
    requires 0 <= k < |s| && s[k] == '\n'
    ensures s == s[..k] + "\n" + s[k + 1..]
  {
  }

  /** A join of several lines begins with its first line, and so with any prefix of it. */
  lemma JoinBegins(lines: seq<string>, p: string)
    requires |lines| > 0 && StartsWith(lines[0], p)
    ensures StartsWith(Join(lines), p)
  {
    if |lines| > 1 {
      var j := Join(lines);
      assert j == lines[0] + ("\n" + Join(lines[1..]));
      assert j[..|p|] == lines[0][..|p|];
    }
  }

  /** The joined text starts with the first line's first character. */
  lemma {:induction false} JoinFirst(lines: seq<string>)
    requires |lines| > 0 && |lines[0]| > 0
    ensures |Join(lines)| > 0 && Join(lines)[0] == lines[0][0]
  {
    if |lines| > 1 {
      assert Join(lines) == lines[0] + "\n" + Join(lines[1..]);
    }
  }

  /** The joined text ends with the last line's last character. */
  lemma {:induction false} JoinLast(lines: seq<string>)
    requires |lines| > 0 && |lines[|lines| - 1]| > 0
    ensures |Join(lines)| > 0
    ensures Join(lines)[|Join(lines)| - 1] == lines[|lines| - 1][|lines[|lines| - 1]| - 1]
  {
    if |lines| > 1 {
      var rest := lines[1..];
      assert rest[|rest| - 1] == lines[|lines| - 1];
      JoinLast(rest);
      assert Join(lines) == lines[0] + "\n" + Join(rest);
    }
  }

  /** Joining non-empty stripped lines gives a text `strip` leaves alone. */
  lemma JoinStripped(lines: seq<string>)
    requires |lines| > 0
    requires forall i :: 0 <= i < |lines| ==> |lines[i]| > 0 && IsStripped(lines[i])
    ensures Strip(Join(lines)) == Join(lines)
  {
    JoinFirst(lines);
    JoinLast(lines);
    StripFixes(Join(lines));
  }

}

=== FILE: video_pipeline.dfy ===
/**
 * `generate_video` from end to end, without the devices: the soundtrack
 * decides the length, the retry loop decides the shader, the shader file
 * is read back for rendering, every frame gets its time and its file name,
 * and the frames are muxed with the soundtrack when there is one.
 *
 * The network, the audio decoder, the language model, the GLSL compiler
 * and the rendering itself are parameters; what is modelled is what the
 * driver code decides from their answers.
 */
module VideoPipeline {

  import opened Results
  import opened Strings
  import opened Sanitizer
  import opened SanitizerProperties
  import ShaderRetry
  import opened FrameNaming
  import opened Listing

  /** The settings `generate_video` reads from the configuration module. */
  datatype Config = Config(width: int, height: int, fps: int, outputDir: string, shaderPath: string, videoPath: string)

  /** The configuration when no environment variable overrides it. */
  const Defaults := Config(512, 512, 30, "temp/frames", "temp/shader.frag", "temp/generated_video.mp4")

  /** Seconds of video when there is no usable soundtrack. */
  const DefaultSeconds := 5

  /** Where a downloaded soundtrack is kept. */
  const AudioPath := "temp/audio.mp3"

  const TimeUniform := "iTime"
  const IntensityUniform := "u_audioIntensity"
  const ResolutionUniform := "iResolution"

  // ---------------------------------------------------------------------
  // Soundtrack

  /** What the audio decoder made of the downloaded file. */
  datatype Probe = ProbeFailed | Probed(seconds: real)

  /** What the download (request, status check and file write) gave. */
  datatype Fetch = FetchFailed | Fetched(probe: Probe)

  /** The run's length in whole seconds and the soundtrack file, if one survived. */
  datatype AudioPlan = AudioPlan(seconds: int, path: Option<string>)

  /** A `music_url` entry is truthy when present and non-empty. */
  predicate Truthy(musicUrl: Option<string>) {
    musicUrl.Some? && |musicUrl.value| > 0
  }

  /** Python's `int(x)` on a float: the integer part, rounding toward zero. */
  function TruncateToInt(x: real): (n: int)
    ensures x >= 0.0 ==> n as real <= x < n as real + 1.0
    ensures x < 0.0 ==> n as real - 1.0 < x <= n as real
  {
    if x >= 0.0 then x.Floor else -((-x).Floor)
  }

  /**
   * The soundtrack step: a truthy URL whose download and decoding both
   * succeed sets the length to the track's whole seconds and keeps the
   * file; anything else leaves five seconds and no soundtrack.
   */
  function InspectAudio(musicUrl: Option<string>, fetch: Fetch): (a: AudioPlan)
    ensures a.path.Some? <==> Truthy(musicUrl) && fetch.Fetched? && fetch.probe.Probed?
    ensures a.path.Some? ==> a.path.value == AudioPath && a.seconds == TruncateToInt(fetch.probe.seconds)
    ensures a.path.None? ==> a.seconds == DefaultSeconds
  {
    if Truthy(musicUrl) && fetch.Fetched? && fetch.probe.Probed? then
      AudioPlan(TruncateToInt(fetch.probe.seconds), Some(AudioPath))
    else
      AudioPlan(DefaultSeconds, None)
  }

  /**
   * The length of `range(duration * FPS)`: the product when it is positive,
   * and no frames at all when it is not.
   */
  function FrameCount(seconds: int, fps: int): (count: nat)
    ensures count >= seconds * fps
    ensures count == 0 || count == seconds * fps
  {
    if seconds * fps > 0 then seconds * fps else 0
  }

  // ---------------------------------------------------------------------
  // Uniforms and frames

  datatype UniformValue = Scalar(x: real) | Vec2(x: real, y: real) | Vec3(x: real, y: real, z: real)

  datatype Binding = Binding(name: string, value: UniformValue)

  /** The value `iResolution` gets for a uniform of dimension `dim`. */
  function ResolutionValue(cfg: Config, dim: nat): (v: UniformValue)
    ensures v.x == cfg.width as real && (v.Vec2? || v.Vec3?) && v.y == cfg.height as real
    ensures v.Vec2? <==> dim == 2
    ensures v.Vec3? ==> v.z == 0.0
  {
    if dim == 2 then Vec2(cfg.width as real, cfg.height as real)
    else Vec3(cfg.width as real, cfg.height as real, 0.0)
  }

  /** The resolution binding, made once, only when the program has that uniform. */
  function ResolutionBinding(cfg: Config, uniforms: map<string, nat>): (b: Option<Binding>)
    ensures b.Some? <==> ResolutionUniform in uniforms
    ensures b.Some? ==> b.value == Binding(ResolutionUniform, ResolutionValue(cfg, uniforms[ResolutionUniform]))
  {
    if ResolutionUniform in uniforms then
      Some(Binding(ResolutionUniform, ResolutionValue(cfg, uniforms[ResolutionUniform])))
    else None
  }

  /** `np.sin(t * 2.0) * 0.5 + 0.5`, with the sine a parameter. */
  function Intensity(sin: real -> real, t: real): real {
    sin(t * 2.0) * 0.5 + 0.5
  }

  /** The per-frame bindings: time and intensity, each only if the program has the uniform. */
  function FrameBindings(uniforms: map<string, nat>, t: real, sin: real -> real): (bs: seq<Binding>)
    ensures |bs| <= 2
    ensures forall b :: b in bs ==> b.name in uniforms
    ensures TimeUniform in uniforms <==> Binding(TimeUniform, Scalar(t)) in bs
    ensures IntensityUniform in uniforms <==> Binding(IntensityUniform, Scalar(Intensity(sin, t))) in bs
    ensures forall b :: b in bs ==> b.name == TimeUniform || b.name == IntensityUniform
    ensures forall b :: b in bs ==>
      b == Binding(TimeUniform, Scalar(t)) || b == Binding(IntensityUniform, Scalar(Intensity(sin, t)))
    ensures |bs| == (if TimeUniform in uniforms then 1 else 0) + (if IntensityUniform in uniforms then 1 else 0)
  {
    (if TimeUniform in uniforms then [Binding(TimeUniform, Scalar(t))] else [])
    + (if IntensityUniform in uniforms then [Binding(IntensityUniform, Scalar(Intensity(sin, t)))] else [])
  }

  /** One rendered frame: its index, the shader time, its file name and the uniforms set for it. */
  datatype Frame = Frame(index: nat, time: real, name: string, bindings: seq<Binding>)

  /** Frame `i` of the frame loop: shown at `i / fps` seconds. */
  function MakeFrame(i: nat, fps: int, uniforms: map<string, nat>, sin: real -> real): (f: Frame)
    requires fps != 0
    ensures f.time * fps as real == i as real
  {
    var t := FrameTime(i, fps);
    Frame(i, t, FrameName(i), FrameBindings(uniforms, t, sin))
  }

  /** `i / FPS`, the time frame `i` is shown at. */
  function FrameTime(i: nat, fps: int): (t: real)
    requires fps != 0
    ensures t * fps as real == i as real
  {
    DivideBack(i as real, fps as real);
    i as real / fps as real
  }

  /** Dividing by a non-zero rate and multiplying back gives the frame index again. */
  lemma DivideBack(x: real, y: real)
    requires y != 0.0
    ensures (x / y) * y == x
  {
  }

  /** The frames of a run: frame `i` for every `i` below `count`. */
  function FramePlan(count: nat, fps: int, uniforms: map<string, nat>, sin: real -> real): (frames: seq<Frame>)
    requires count > 0 ==> fps != 0
    ensures |frames| == count
    ensures forall i :: 0 <= i < count ==> frames[i] == MakeFrame(i, fps, uniforms, sin)
  {
    if count == 0 then []
    else seq(count, i requires 0 <= i < count => MakeFrame(i, fps, uniforms, sin))
  }

  /**
   * Frame `i` of the plan is saved as `FrameName(i)` and sets exactly the
   * per-frame uniforms the program has, at the time `MakeFrame` gives it.
   */
  lemma PlannedFrame(count: nat, fps: int, uniforms: map<string, nat>, sin: real -> real, i: nat)
    requires count > 0 ==> fps != 0
    requires i < count
    ensures var f := FramePlan(count, fps, uniforms, sin)[i];
      && f.index == i
      && f.name == FrameName(i)
      && f.bindings == FrameBindings(uniforms, f.time, sin)
  {
    var f := FramePlan(count, fps, uniforms, sin)[i];
    assert f == MakeFrame(i, fps, uniforms, sin);
  }

  /** The plan writes the frame files `frame_0000.png` onwards, one per frame, in frame order. */
  lemma PlanNames(count: nat, fps: int, uniforms: map<string, nat>, sin: real -> real)
    requires count > 0 ==> fps != 0
    ensures FileNames(FramePlan(count, fps, uniforms, sin)) == IndexNames(count)
  {
    var names := FileNames(FramePlan(count, fps, uniforms, sin));
    forall i | 0 <= i < count ensures names[i] == FrameName(i) {
      PlannedFrame(count, fps, uniforms, sin, i);
    }
  }

  // ---------------------------------------------------------------------
  // The whole run

  datatype Soundtrack = Soundtrack(path: string, seconds: int)

  /** The encoded video: where it goes, its rate, its frame files in the order the encoder reads them, and its soundtrack. */
  datatype Video = Video(path: string, fps: int, frameNames: seq<string>, audio: Option<Soundtrack>)

  /** Why a run raised instead of producing a video. */
  datatype Failure =
    | ShaderAttemptsExhausted  // the loop's `else` branch raised its runtime error
    | NoShaderLines            // the sanitiser indexed an empty line list

  /** What the renderer used: the shader text read back from the file, the resolution binding, the frames. */
  datatype Render = Render(shader: string, resolution: Option<Binding>, frames: seq<Frame>)

  datatype RunResult = Failed(failure: Failure) | Produced(render: Render, video: Video)

  /** The file names of the frames, in frame order. */
  function FileNames(frames: seq<Frame>): (names: seq<string>)
    ensures |names| == |frames| && forall i :: 0 <= i < |frames| ==> names[i] == frames[i].name
  {
    seq(|frames|, i requires 0 <= i < |frames| => frames[i].name)
  }

  /**
   * The muxing step. The encoder reads the frame directory in string order
   * of the file names, and the soundtrack is attached exactly when its path
   * survived.
   */
  function Mux(cfg: Config, frames: seq<Frame>, audio: AudioPlan): (v: Video)
    ensures v.audio.Some? <==> audio.path.Some?
    ensures v.audio.Some? ==> v.audio.value == Soundtrack(audio.path.value, audio.seconds)
    ensures |v.frameNames| == |frames|
    ensures multiset(v.frameNames) == multiset(FileNames(frames)) && InOrder(v.frameNames)
    ensures InOrder(FileNames(frames)) ==> v.frameNames == FileNames(frames)
    ensures v.fps == cfg.fps && v.path == cfg.videoPath
  {
    var names := FileNames(frames);
    var listed := SortNames(names);
    assert |listed| == |multiset(listed)| == |names|;
    assert InOrder(names) ==> listed == names by {
      if InOrder(names) {
        SortOrdered(names);
      }
    }
    var track := if audio.path.Some? then Some(Soundtrack(audio.path.value, audio.seconds)) else None;
    Video(cfg.videoPath, cfg.fps, listed, track)
  }

  /**
   * `generate_video(payload, max_retries)`. `fetch` is what the download and
   * decoder give, `candidate(k)` the model's reply on attempt `k`,
   * `compiles` the compiler's verdict, `uniforms(s)` the active uniforms of
   * the program built from shader `s` with their dimensions, and `sin` the
   * sine used for the intensity.
   */
  function GenerateVideo(
    cfg: Config, musicUrl: Option<string>, fetch: Fetch,
    candidate: nat -> string, compiles: string -> bool, maxRetries: nat,
    uniforms: string -> map<string, nat>, sin: real -> real): (r: RunResult)
    ensures r.Failed? <==> !ShaderRetry.Retry(candidate, CleanShader, compiles, maxRetries, 0, None).outcome.Compiled?
    ensures r.Produced? ==> |r.render.frames| == FrameCount(InspectAudio(musicUrl, fetch).seconds, cfg.fps)
  {
    var audio := InspectAudio(musicUrl, fetch);
    var count := FrameCount(audio.seconds, cfg.fps);
    var run := ShaderRetry.Retry(candidate, CleanShader, compiles, maxRetries, 0, None);
    match run.outcome
    case Exhausted => Failed(ShaderAttemptsExhausted)
    case SanitizerCrashed => Failed(NoShaderLines)
    case Compiled(_) =>
      var shader := Strip(run.staged.value);
      var frames := FramePlan(count, cfg.fps, uniforms(shader), sin);
      Produced(Render(shader, ResolutionBinding(cfg, uniforms(shader)), frames), Mux(cfg, frames, audio))
  }

}
